=== FILE: README.md ===
# gojuice evaluator and scope layer, in Dafny

This project models the core of gojuice, a tree-walking interpreter for a
small JavaScript subset, written in Go. It covers two parts:

- the lexical scope layer (`scope/scope.go`): a scope maps names to
  bindings, each binding carries a constant flag, and `Set` refuses to
  overwrite a constant binding;
- the evaluator (`machine/machine.go`): it walks the syntax tree; resolves
  names through the scope chain, then the runtime's globals, then the
  engine's globals; creates and invokes closures; reads and writes object
  members and array elements in place; implements truthiness, `==` and
  `===`; parses number and string literals; and calls host-supplied Go
  functions through a reflective bridge that checks each function's shape
  before calling it.

The model is functional and store-passing:

- The evaluation state is a scope arena (scopes addressed by handle, each
  holding its parent's handle), the handle of the active scope, a heap of
  objects and arrays, and a counter that gives each function value its
  identity.
- Every evaluation function takes a state and returns an `Outcome`:
  - a value and a new state;
  - an error and a new state (Go's non-nil `error`);
  - or a halt, for a Go runtime panic or for running out of the evaluation
    budget.
- Go's unbounded recursion becomes a fuel parameter that only `Eval`
  spends.
- Operations that panic in Go take panic-freedom as a precondition, and the
  evaluator checks it before calling them.

Files:

| file | module | contents |
|---|---|---|
| base.dfy | Base | Option, Result, int64 range, wrap-around, Go's truncating `%` |
| scope.dfy | Scope | scopes, bindings, `New`, `Get`, `Set` |
| ast.dfy | Ast | the node kinds the evaluator dispatches on |
| values.dfy | Values | runtime values, reflection kinds, function signatures |
| memory.dfy | Memory | the object and array heap |
| host.dfy | HostInterface | everything taken from outside the evaluator, as parameters |
| coercion.dfy | Coercion | truthiness, `==`, `===` |
| errors.dfy | Errors | the error kinds |
| runtime.dfy | Runtime | state, scope push/pop, name binding, name resolution |
| literals.dfy | Literals | number and string literals |
| access.dfy | Access | member and index reads and writes |
| bridge.dfy | Bridge | the native-call checks and native invocation |
| evaluator.dfy | Evaluator | the mutually recursive evaluator |
| machine.dfy | Machine | `Run`, `Call` by name, whole-evaluation properties |
| scenarios.dfy | Scenarios | programs from the repository's test table |

The model departs from the code in one place: `===` on two interpreted
functions or on two empty arrays. There the evaluator uses the corrected
comparison, and the code's behaviour is kept alongside it (see
"## Findings"). In every other case the evaluator's `===` is proved equal to
the code's (`Evaluator.EvalCompare`).

Behaviours of the code that a JavaScript reader might not expect:

- A block yields nil, not the value of its last statement.
- Bare-name assignment `x = v` writes into the innermost (active) scope,
  not into the scope that owns `x`. So a function body or a block can never
  rebind a name of an enclosing scope (`Machine.CallsDoNotRebindCallerNames`).
- `Run` evaluates the program as a block. Its top-level declarations
  therefore live in a scope that is discarded when `Run` returns
  (`Machine.BlockDeclarationsDoNotLeak`). A later `Runtime.Call` cannot see
  them.
- for-in accepts only objects; an array is a `NotObjectError`.
- `let`, `const` and function declarations discard `Set`'s error, so
  re-declaring a constant is silently ignored.
- Writing Undefined to an object member deletes the key (Go's
  `SetMapIndex` with the zero value). Writing it to an array element
  panics (`reflect.Value.Set` with the zero value). An object literal does
  store Undefined under its key.
- The check that a for-in declaration has exactly one element is made once
  per key. A loop over an object with no keys therefore accepts any
  declaration.
- The repository's test at machine/machine_test.go:96-97 expects
  `[0,2,4][1]` to read 1. The code reads 2 (`Access.IndexReadsPosition`).
- The same test table expects for-in keys in insertion order. Go map order
  is random, so the model takes the key order as a host parameter.

## Model

| member | source | states |
|---|---|---|
| Scope.New | scope/scope.go:16-21 | a new scope has the given parent and binds no name |
| Scope.Set | scope/scope.go:32-41 | refused exactly when the existing binding is constant, then the scope is unchanged and the error carries that binding; otherwise `Get` returns the new binding (a constant may replace a non-constant one); the parent and every other name are unchanged |
| Scope.SetExtends | scope/scope.go:32-41 | no `Set` removes a binding or changes a constant one |
| Scope.ConstantIsPermanent | scope/scope.go:32-45 | once constant, a binding survives any series of `Set` calls |
| Runtime.Initial | machine/machine.go:126-134 | a new runtime has one active root scope binding nothing |
| Runtime.Push | machine/machine.go:723-727 | entering a block makes a new empty scope under the given parent active; every existing scope, the heap and the function counter are unchanged |
| Runtime.Bind | machine/machine.go:702-705 | a declaration binds the name in the active scope unless it is constant there, and touches no other scope |
| Runtime.BindEachBinds | machine/machine.go:442-450 | binding names to values in order leaves every name outside the list as it was, and binds each non-constant name, non-constant, to the value at its last position |
| Runtime.AssignName | machine/machine.go:515-522 | bare assignment fails exactly when the name is constant in the active scope (the error carries that binding, the state is unchanged); otherwise the active scope binds it non-constant to the value, and every other name there, every other scope, the heap and the function counter are unchanged |
| Runtime.FindInChainIsFirstHit | machine/machine.go:137-141 | the chain walk returns the binding in the first scope, innermost first, that binds the name |
| Runtime.Lookup | machine/machine.go:136-152 | resolution order: scope chain, then runtime globals, then engine globals, else `NotDeclared` |
| Runtime.InnermostBindingShadows | machine/machine.go:136-152 | a binding in the active scope hides outer bindings and globals |
| Runtime.AssignedNameResolves | machine/machine.go:509-522 | after a successful `x = v`, `x` resolves to `v` |
| Runtime.LookupStable | machine/machine.go:136-152 | resolution depends only on the scopes along the active chain |
| Runtime.PushedWorkIsLocal | machine/machine.go:723-734 | work in a freshly pushed scope leaves every older scope unchanged, and restoring the active handle gives a balanced state |
| Memory.PutKey | machine/machine.go:535 | a member write stores the value, or deletes the key when the value is Undefined; no other key, object or array changes |
| Memory.PutElem | machine/machine.go:570 | an element write replaces exactly that element; the length and all other storage are unchanged |
| Memory.MemberAfterPutKey | machine/machine.go:535 | a member read after a member write of the same key gives the written value (Undefined after a delete) |
| Memory.AllocObj | machine/machine.go:395 | a new object gets an address no object had, holding exactly the given map; nothing else changes |
| Memory.AllocArr | machine/machine.go:320 | a new array gets an address no array had, holding exactly the given elements; nothing else changes |
| Memory.PutKeyAliasing | machine/machine.go:535 | a member write is visible through every holder of the same address and no other |
| Coercion.Truthy | machine/machine.go:599-630 | false exactly for nil, integer 0, zero floats, the empty string and `false`; objects, arrays and functions are always true |
| Coercion.StrictEquals | machine/machine.go:471-507 | false on kind mismatch; integers, booleans and strings compare by value; objects and arrays by address; functions by identity |
| Coercion.AsWrittenDiffersOnlyOnFunctionsAndEmptyArrays | machine/machine.go:471-507 | the code's `===` and the corrected one agree except on two functions or two empty arrays |
| Coercion.AsWrittenEquatesDistinctFunctions | machine/machine.go:497-504 | as written, two different interpreted functions compare strictly equal |
| Coercion.AsWrittenEquatesDistinctEmptyArrays | machine/machine.go:503-504 | as written, two separately built empty arrays compare strictly equal |
| Coercion.IntNeverStrictlyEqualsFloat | machine/machine.go:482-487 | `1 === 1.0` is false |
| Coercion.StrictEqualsReflexive | machine/machine.go:471-507 | every non-nil value except a float unequal to itself is strictly equal to itself |
| Coercion.StrictEqualsSymmetric | machine/machine.go:471-507 | `===` is symmetric when float `==` is |
| Literals.AtoiReadsItoa | machine/machine.go:647-651 | every int64 written in decimal is read back by `Atoi` |
| Literals.DecimalValue | machine/machine.go:647-652 | an integer exactly when `Atoi` accepts the text, otherwise the float parser's result or its error |
| Literals.DigitStringIsInt | machine/machine.go:647-651 | a non-negative int64 written in decimal evaluates to that integer |
| Literals.FractionIsNeverInt | machine/machine.go:647-652 | a token with a point or an exponent is never an integer |
| Literals.StringLiteralValue | machine/machine.go:654 | a string token loses exactly its first and last characters |
| Literals.QuotedRoundTrip | machine/machine.go:654 | quoting then evaluating gives back the text |
| Literals.LiteralValue | machine/machine.go:645-660 | decimal and string tokens evaluate as above; every other token is not implemented |
| Access.ArrayIndex | machine/machine.go:300-311 | an index lands on an element exactly when it is in range, or negative and a multiple of the length (landing on element 0); it is out of bounds exactly when `len <= idx < MaxInt64`; everything else panics |
| Access.IndexRead | machine/machine.go:288-316 | objects are read under the index's rendering; arrays need an integer index, report out-of-bounds for `idx >= len` and otherwise read exactly that element; other targets are not implemented |
| Access.DotRead | machine/machine.go:380-391 | only objects have members; a missing key reads Undefined |
| Access.DotWrite | machine/machine.go:528-536 | only objects accept a member write, which goes in place |
| Access.IndexWrite | machine/machine.go:546-576 | objects store under the index's rendering; arrays need an integer index in range and replace exactly that element, keeping the length; other targets are not implemented |
| Access.DotWriteIsSharedByAliases | machine/machine.go:535 | a member write is read back through every alias of the object and through no other object |
| Access.IndexReadAfterWrite | machine/machine.go:559-571 | an element written and read at the same index gives the written value |
| Access.IndexReadsPosition | machine/machine.go:311 | `[0,2,4][1]` reads 2 |
| Bridge.Check | machine/machine.go:169-206 | the checks run in a fixed order, each failure forced by its condition: a non-function is `NotCallable`; then a non-variadic arity mismatch is `WrongNumberOfArgs(got, want)`; then a result count other than two is `NoReturnValue`; then a first result that is not an empty interface, and then a second that is not an error, are `WrongReturnValue(found, wanted)`; the call is accepted exactly when all pass |
| Bridge.ClosuresAlwaysPass | machine/machine.go:428 | an interpreted function passes every check for any number of arguments |
| Bridge.OnlyFunctionsAreCallable | machine/machine.go:169-175 | every non-function value is refused as not callable |
| Bridge.CallNative | machine/machine.go:207-216 | a variadic native given fewer arguments than its fixed parameters panics; otherwise its result is returned, or its non-nil error raised |
| Evaluator.Eval | machine/machine.go:231-277 | evaluation keeps the scope discipline on every path that does not halt; statements yield nil |
| Evaluator.EvalLiteral | machine/machine.go:645-660 | halts exactly on a string token shorter than its quotes; otherwise the literal's value or error, with the state unchanged |
| Evaluator.EvalVar | machine/machine.go:677-679 | a name evaluates to its resolution and changes nothing |
| Evaluator.MakeFunction | machine/machine.go:426-457 | a function value closes over the active scope and has an identity no earlier function value had |
| Evaluator.DeclareFunction | machine/machine.go:414-424 | a function declaration binds a new function, closing over the active scope, constant in the active scope unless the name is already constant there; every other name there, every other scope and the heap are unchanged |
| Evaluator.EvalIf | machine/machine.go:632-643 | the condition runs first and its error or halt is the statement's; otherwise exactly the branch its truthiness selects runs, in the state the condition left, and the statement yields nil or that branch's error |
| Evaluator.EvalBlock | machine/machine.go:723-734 | a block runs its statements in a new scope under the active one: the statements' error or halt is the block's, a successful block yields nil, and on success and error the active scope is restored and every older scope is unchanged |
| Evaluator.EvalStmts | machine/machine.go:729-733 | a failing first statement is the result, so nothing after it runs; a single statement's state is the result's and the value is nil (with `Machine.EvalStmtsAppend`, statements run in order up to the first error) |
| Evaluator.EvalBinding | machine/machine.go:689-712 | a supplied non-nil value is bound to a plain name directly, without evaluating the default; a destructuring pattern is not implemented; on success the name is bound in the active scope, constant for `const` |
| Evaluator.BindingTakesDefault | machine/machine.go:694-700 | a nil value is replaced by the default's value, evaluated in the active scope, and the name is bound to that; an error or halt in the default is the element's |
| Evaluator.EvalDecls | machine/machine.go:714-721 | a successful declaration list leaves every declared name bound in the active scope (constant for `const`) and yields nil; any destructuring element makes it fail |
| Evaluator.EvalList | machine/machine.go:667-673 | the first expression runs first: its error or halt is the result, and its value is the first value; one value per expression (with `Machine.EvalListAppend`, left to right) |
| Evaluator.EvalCall | machine/machine.go:662-675 | the callee, then the arguments, are evaluated, and either one's failure is the call's; otherwise the result is the bridge call `CallValue` on the callee's value and the argument values |
| Evaluator.CallValue | machine/machine.go:160-217 | a refused callee raises the first failed check and changes nothing; an accepted native is `CallNative`; an accepted interpreted function is `Invoke` and yields nil, rejects extra arguments, and changes no existing scope |
| Evaluator.Invoke | machine/machine.go:428-452 | a call with too many arguments fails with `WrongNumberOfArgs`; otherwise the parameters are bound in a new scope under the defining scope, the body runs there as a block, and the caller's scope is active again on every path with nil as the value |
| Evaluator.ReturnTo | machine/machine.go:429-433 | leaving a function restores the caller's scope, passes on an error or halt, and yields nil |
| Evaluator.BindParams | machine/machine.go:442-450 | binding parameters succeeds only when every parameter is a plain name, keeps the scope discipline and yields nil |
| Evaluator.BindParamsAllSupplied | machine/machine.go:442-450 | with every argument supplied and not nil, each parameter is bound non-constant to the argument at its position, and no default runs |
| Evaluator.EvalBinary | machine/machine.go:584-597 | only `=`, `==` and `===` are implemented; any other operator fails without evaluating its operands; comparisons yield booleans |
| Evaluator.EvalCompare | machine/machine.go:459-507 | both operands run left to right and their failure is the result; `==` is equality of their renderings in the heap as both left it; `===` of two nils panics; `===` is the corrected strict equality, and equals the code's `===` whenever the operands are not two functions and not two empty arrays |
| Evaluator.EvalAssign | machine/machine.go:509-582 | the right-hand side runs first and its failure is the result; a name target is `AssignName`; a member target evaluates the object (nil panics) and applies `DotWrite`; an index target evaluates target and index and applies `IndexWrite`, or panics as `IndexWritePanics` says; any other target is not implemented; on success the value is the right-hand side's |
| Evaluator.EvalDot | machine/machine.go:375-392 | the object's failure is the result; a nil object panics; otherwise the result is `DotRead` of the object and key in the state the object left |
| Evaluator.EvalIndex | machine/machine.go:279-317 | target, then index; their failure is the result; where `IndexReadPanics` holds the read panics, otherwise the result is `IndexRead` in the state they left |
| Evaluator.EvalObject | machine/machine.go:394-412 | an object literal's failure is that of its properties; otherwise it yields a newly allocated object holding exactly the map its properties built, and every other object, every array and the scopes are as the properties left them |
| Evaluator.EvalPropName | machine/machine.go:397-403 | a literal key is its text and costs nothing; a computed key is evaluated and rendered with the host's `fmt.Sprint` in the heap it left, and its failure is the key's |
| Evaluator.EvalProps | machine/machine.go:396-410 | every literal key ends up stored; with only literal keys, the stored keys are exactly the earlier ones plus these; an earlier entry no property names keeps its value (with `Machine.LastPropertyWins` and `Machine.EvalPropsAppend`, each property, literal or computed, stores its value under its key in order) |
| Evaluator.EvalArray | machine/machine.go:319-329 | an array literal's failure is that of its elements; otherwise it yields a newly allocated array holding exactly the element values in order, and every other array, every object and the scopes are as the elements left them |
| Evaluator.EvalForIn | machine/machine.go:331-373 | a for-in needs an object (nil panics, other values raise `NotObject`) and a declaration; it then runs `EvalForInKeys` over the object's keys in the host's order, from the state the object expression left |
| Evaluator.EvalForInKeys | machine/machine.go:344-366 | with at least one key, a declaration of other than one element is not implemented and nothing runs; otherwise the first key is bound in a new scope under the active one and the body runs there, and an error or halt in either is the loop's, with the active scope restored; with `const`, each key stays bound in its scope |
| Evaluator.ForInKeysContinue | machine/machine.go:344-366 | after an iteration whose binding and body both complete, the loop goes on with the remaining keys from the state the body left, with the loop's scope active again |
| Machine.Run | machine/machine.go:154-158 | running a program is evaluating it as one block (so its statements run in a new scope); it leaves every existing scope as it was and the same scope active |
| Machine.CallByName | machine/machine.go:219-225 | an unresolved name raises `NotDeclared` and changes nothing; otherwise it is a bridge call |
| Machine.BlockDeclarationsDoNotLeak | machine/machine.go:723-734 | after a block every name resolves as before |
| Machine.CallsDoNotRebindCallerNames | machine/machine.go:515-522 | a call never changes what a name resolves to in the caller |
| Machine.RedeclaringConstantIsIgnored | machine/machine.go:702-705 | re-declaring a constant fails only if the initialiser fails, and the constant stays |
| Machine.AssigningConstantFails | machine/machine.go:515-521 | assigning to a constant raises the constant-mutation error |
| Machine.NameAssignment | machine/machine.go:509-522 | `x = e` evaluates `e`, then assigns its value to `x` by `AssignName` |
| Machine.EachFunctionIsNew | machine/machine.go:426-453 | two evaluations of a function expression give functions the corrected `===` tells apart and the written one does not |
| Machine.IfIgnoresUntakenBranch | machine/machine.go:632-643 | an `if` whose condition succeeds has the outcome of the chosen branch run in the state the condition left, with nil as the value; the other branch can be anything |
| Machine.EvalStmtsAppend | machine/machine.go:729-733 | running `a + b` runs `a`, then `b` from the state `a` left, unless `a` failed, in which case that failure is the result |
| Machine.EvalListAppend | machine/machine.go:667-673 | evaluating `a + b` yields `a`'s values followed by `b`'s, with `b` evaluated after `a`; the first failure is the result |
| Machine.EvalPropsAppend | machine/machine.go:396-410 | the properties of `a + b` are those of `a`, then those of `b` starting from what `a` stored |
| Machine.LastPropertyWins | machine/machine.go:396-410 | after the earlier properties, the last property's key (literal, or computed and rendered) and then its value are evaluated, and the value is stored under that key over any earlier entry; a failure in either is the literal's |
| Machine.ClosureCallBindsArguments | machine/machine.go:427-451 | a call with every argument supplied runs the body as a block in a new scope under the defining scope, in which each parameter is bound non-constant to its argument and no other name is bound; the caller's scope is then active again and the call yields nil |
| Machine.MissingArgumentTakesDefault | machine/machine.go:442-450 | for a one-parameter function, a missing or nil argument means the parameter is bound to its default's value, evaluated in the function's new scope |
| Machine.DeclarationBindsInitialiser | machine/machine.go:689-721 | `let x = e` / `const x = e` evaluates `e` and binds `x` in the active scope to its value, constant exactly for `const`, unless `x` is already constant there; a failure in `e` is the declaration's |
| Machine.SingleDeclaration | machine/machine.go:714-721 | a one-element declaration is that element's binding with no value given; its failure is the declaration's, and otherwise it yields nil |
| Machine.MemberAssignmentReadsBack | machine/machine.go:523-536 | after a successful `o.k = e`, the object read back through any holder has `e`'s value under `k` |
| Machine.ArrayLiteralIndexing | machine/machine.go:300-329 | indexing a new array literal at a position reads the value its element at that position evaluated to |
| Machine.ForInVisitsEveryKey | machine/machine.go:344-366 | a completed `const` for-in left, for every key the object had when the loop started, a scope under the active one binding the loop variable constant to that key |
| Machine.ForInKeysAppend | machine/machine.go:344-366 | a for-in over keys `k1 + k2` runs the iterations for `k1`, then, unless one failed, those for `k2` from the state they left; with `EvalForInKeys` this says the body runs once per key, in key order |
| Scenarios.ReassigningConstFails | machine/machine_test.go:80-81 | `const a = 1; a = 2;` raises the constant-mutation error |
| Scenarios.MemberOfNumberFails | machine/machine_test.go:84-85 | `const a = 1; a.b = 2;` raises `NotObject` |

## Left out

- Go's `fmt.Sprint`, `strconv.ParseFloat`, float64 comparison and map key
  order are host parameters. They are used for `==`, computed keys,
  member keys, float literals, truthiness of floats, `===` on floats and
  for-in order, and are not modelled.
- Native functions are a host parameter from code and arguments to a
  reply. They cannot change the heap or call back into the runtime. They
  also cannot read the contents of an object or array passed to them: they
  see its address but not the heap. In Go they receive the map or slice
  itself.
  Reflection's argument-type conversion is part of that reply: a mismatch
  is reported as a panic.
- Go values other than nil, `int`, `float64`, `string`, `bool`, objects,
  arrays and functions are not modelled. A native cannot return one.
- The Go parser is not part of this model. The syntax tree has the node
  kinds `Eval` dispatches on, plus a catch-all for every other kind. A
  literal key's text is whatever the parser supplies.
- Error messages and the `Item` payloads that are not values (syntax
  nodes) are not modelled. The errors carry the values and counts.
- The `Runtimes` list and engine bookkeeping (machine/machine.go:106-134)
  are left out. So are debug tracing and the no-op throttle hooks
  (machine/machine.go:231-238, 681-687). So is unsynchronised sharing of
  engine globals between runtimes: the globals are read-only inputs here.
- A native's second result is kept only as an error code. When a native
  returns both a value and an error, the value is dropped. Every caller in
  the evaluator drops it too. `Machine.CallByName` also drops it, though
  `Runtime.Call` (machine/machine.go:219-225) hands both back to its host
  caller.
- Evaluator.Eval: a run that needs more recursion than the fuel allows
  halts with `OutOfFuel`. Go would recurse until its stack overflowed.
- Evaluator.EvalForInKeys: with `let`/`var` the loop variable may be
  reassigned in the body, so only `const` loops state the binding each
  iteration leaves. That every key is visited exactly once, rather than at
  least once, is not stated.
- Evaluator.EvalCompare: `===` on two interpreted functions or two empty
  arrays uses the corrected comparison, not the code's. The code calls any
  two such values equal (see "## Findings"). `Coercion.StrictEqualsAsWritten`
  keeps the code's behaviour, and `Evaluator.EvalCompare` proves the two
  agree everywhere else. `==` is stated as equality of renderings, which are
  host parameters.
- Evaluator.EvalDecls: the value each name is bound to is stated for a
  single declaration (`Machine.DeclarationBindsInitialiser`). For a list,
  only that every name ends up bound (constant for `const`) is stated,
  because a later initialiser may itself rebind an earlier name.
- Evaluator.BindParams: the default taken for a missing argument is stated
  for a one-parameter function (`Machine.MissingArgumentTakesDefault`). A
  default may itself rebind earlier parameters, so the general case is
  stated only for fully supplied arguments.
- Machine.ForInVisitsEveryKey: assumes the host lists each key exactly
  once, as Go's `MapKeys` does.

## Findings

| source | as written | input that shows it | evidently intended | confidence | as-written member | corrected member |
|---|---|---|---|---|---|---|
| machine/machine.go:497-504 | `===` compares functions by `reflect.Value.Pointer`, which for a func is its code pointer; every interpreted function is the same Go closure literal, so all share one code pointer | `(() => {}) === ((v) => {})` is true | functions are strictly equal only when they are the same function value | high; not executed | Coercion.AsWrittenEquatesDistinctFunctions | Coercion.StrictEquals |
| machine/machine.go:503-504 | slices compare by the address of their backing array; `make([]interface{}, 0, 0)` for an empty array literal has zero size, so every empty array points at the Go runtime's one zero-size allocation | `[] === []` is true | two separately built arrays are never strictly equal | medium; not executed | Coercion.AsWrittenEquatesDistinctEmptyArrays | Coercion.StrictEquals |

=== FILE: access.dfy ===
/** Member and index access on objects and arrays (`EvalDotExpr`,
    `EvalIndexExpr`, and the member and index cases of `EvalAssignment`).
    Each operation takes as a precondition that Go does not panic on it; the
    matching `...Panics` predicate says when Go does, and the evaluator checks
    it before calling. */
module Access {
  import opened Base
  import opened Values
  import opened Memory
  import opened Errors
  import opened HostInterface

  /** Where an array index lands: on element `i`, past the end (reported as
      IndexOutOfBoundsError), or on a Go panic. */
  datatype Slot = At(i: nat) | OutOfRange | Crash

  /** The index computation shared by array reads and writes: a negative
      index is replaced by its Go remainder modulo the length (a division by
      zero when the array is empty), then `idx+1 > len` (in wrapping 64-bit
      arithmetic) reports out of bounds, and the element access itself panics
      on any index still outside the array. */
  function ArrayIndex(idx: Int64, len: nat): (r: Slot)
    ensures r.At? <==> (0 <= idx < len) || (idx < 0 && len > 0 && Abs(idx) % len == 0)
    ensures r.At? ==> r.i == if idx >= 0 then idx else 0
    ensures r.OutOfRange? <==> len <= idx < MaxInt64
  {
    if idx < 0 && len == 0 then Crash
    else
      var j := if idx < 0 then GoRem(idx, len) else idx;
      if Wrap64(j + 1) > len then OutOfRange
      else if 0 <= j < len then At(j)
      else Crash
  }

  /** `EvalIndexExpr` panics on a nil target, on an object key that is
      missing, and on an array index that lands on no element. */
  predicate IndexReadPanics(host: Host, h: Heap, x: Value, y: Value)
  {
    || x.Undefined?
    || (x.Obj? && host.render(h, y) !in ObjAt(h, x.addr))
    || (x.Arr? && y.Int? && ArrayIndex(y.i, |ArrAt(h, x.addr)|).Crash?)
  }

  /** `x[y]`: an object is indexed by `y`'s rendering; an array needs an
      integer index within bounds and yields exactly that element; any other
      target is not supported. */
  function IndexRead(host: Host, h: Heap, x: Value, y: Value): (r: Result<Value, Error>)
    requires !IndexReadPanics(host, h, x, y)
    ensures x.Obj? ==> r == Ok(ObjAt(h, x.addr)[host.render(h, y)])
    ensures x.Arr? && !y.Int? ==> r == Err(NonIntegerIndex(x, y))
    ensures x.Arr? && y.Int? && y.i >= |ArrAt(h, x.addr)| ==> r == Err(IndexOutOfBounds(x, y))
    ensures x.Arr? && y.Int? && 0 <= y.i < |ArrAt(h, x.addr)| ==> r == Ok(ArrAt(h, x.addr)[y.i])
    ensures x.Arr? && y.Int? && y.i < 0 ==> r == Ok(ArrAt(h, x.addr)[0])
    ensures !x.Obj? && !x.Arr? ==> r == Err(NotImplemented("index expression"))
  {
    match x
    case Obj(a) => Ok(ObjAt(h, a)[host.render(h, y)])
    case Arr(a) =>
      if !y.Int? then Err(NonIntegerIndex(x, y))
      else
        var slot := ArrayIndex(y.i, |ArrAt(h, a)|);
        if slot.At? then Ok(ArrAt(h, a)[slot.i]) else Err(IndexOutOfBounds(x, y))
    case _ => Err(NotImplemented("index expression"))
  }

  /** `x.key`: only objects have members; a missing key reads as
      Undefined. Go panics on a nil target. */
  function DotRead(h: Heap, x: Value, key: string): (r: Result<Value, Error>)
    requires !x.Undefined?
    ensures !x.Obj? ==> r == Err(NotObject(x))
    ensures x.Obj? && key in ObjAt(h, x.addr) ==> r == Ok(ObjAt(h, x.addr)[key])
    ensures x.Obj? && key !in ObjAt(h, x.addr) ==> r == Ok(Undefined)
  {
    if x.Obj? then Ok(Member(h, x.addr, key)) else Err(NotObject(x))
  }

  /** `x.key = v`: only objects accept it; the key is stored in place (or
      deleted, when `v` is Undefined). Go panics on a nil target. */
  function DotWrite(h: Heap, x: Value, key: string, v: Value): (r: Result<Heap, Error>)
    requires !x.Undefined?
    ensures !x.Obj? ==> r == Err(NotObject(x))
    ensures x.Obj? ==> r == Ok(PutKey(h, x.addr, key, v))
  {
    if x.Obj? then Ok(PutKey(h, x.addr, key, v)) else Err(NotObject(x))
  }

  /** The index write panics on a nil target, on an index that lands on no
      element, and when storing Undefined into an array element
      (`reflect.Value.Set` of the zero Value). */
  predicate IndexWritePanics(h: Heap, x: Value, idx: Value, v: Value)
  {
    || x.Undefined?
    || (x.Arr? && idx.Int? && ArrayIndex(idx.i, |ArrAt(h, x.addr)|).Crash?)
    || (x.Arr? && idx.Int? && ArrayIndex(idx.i, |ArrAt(h, x.addr)|).At? && v.Undefined?)
  }

  /** `x[idx] = v`: an object stores `v` under `idx`'s rendering; an array
      needs an integer index within bounds and replaces exactly that element,
      keeping its length; any other target is not supported. */
  function IndexWrite(host: Host, h: Heap, x: Value, idx: Value, v: Value): (r: Result<Heap, Error>)
    requires !IndexWritePanics(h, x, idx, v)
    ensures x.Obj? ==> r == Ok(PutKey(h, x.addr, host.render(h, idx), v))
    ensures x.Arr? && !idx.Int? ==> r == Err(NonIntegerIndex(x, idx))
    ensures x.Arr? && idx.Int? && idx.i >= |ArrAt(h, x.addr)| ==> r == Err(IndexOutOfBounds(x, idx))
    ensures r.Ok? ==> SameShape(h, r.value)
    ensures x.Arr? && r.Ok? ==>
              && var i := if idx.i >= 0 then idx.i else 0;
              && idx.Int? && i < |ArrAt(h, x.addr)|
              && |ArrAt(r.value, x.addr)| == |ArrAt(h, x.addr)|
              && ArrAt(r.value, x.addr)[i] == v
              && (forall j :: 0 <= j < |ArrAt(h, x.addr)| && j != i ==> ArrAt(r.value, x.addr)[j] == ArrAt(h, x.addr)[j])
              && (forall b :: b != x.addr ==> ArrAt(r.value, b) == ArrAt(h, b))
              && r.value.objs == h.objs
    ensures !x.Obj? && !x.Arr? ==> r == Err(NotImplemented("index expression"))
  {
    match x
    case Obj(a) => Ok(PutKey(h, a, host.render(h, idx), v))
    case Arr(a) =>
      if !idx.Int? then Err(NonIntegerIndex(x, idx))
      else
        var slot := ArrayIndex(idx.i, |ArrAt(h, a)|);
        if slot.At? then Ok(PutElem(h, a, slot.i, v)) else Err(IndexOutOfBounds(x, idx))
    case _ => Err(NotImplemented("index expression"))
  }

  /** A member write is seen through every value holding the same object
      and through no other object; the write of Undefined reads back as
      Undefined because it deletes the key. */
  lemma DotWriteIsSharedByAliases(h: Heap, a: nat, b: nat, key: string, v: Value)
    requires a < |h.objs|
    ensures DotWrite(h, Obj(a), key, v).Ok?
    ensures var h' := DotWrite(h, Obj(a), key, v).value;
            DotRead(h', Obj(b), key) == Ok(if b == a then v else Member(h, b, key))
  {
    PutKeyAliasing(h, a, b, key, v);
  }

  /** Reading an element back after writing it gives the written value. */
  lemma IndexReadAfterWrite(host: Host, h: Heap, a: nat, n: Int64, v: Value)
    requires 0 <= n < |ArrAt(h, a)| && !v.Undefined?
    ensures IndexWrite(host, h, Arr(a), Int(n), v).Ok?
    ensures var h' := IndexWrite(host, h, Arr(a), Int(n), v).value;
            !IndexReadPanics(host, h', Arr(a), Int(n)) && IndexRead(host, h', Arr(a), Int(n)) == Ok(v)
  {
  }

  /** The interpreter reads `[0,2,4][1]` as 2, the element at position 1. */
  lemma IndexReadsPosition(host: Host, h: Heap, a: nat)
    requires ArrAt(h, a) == [Int(0), Int(2), Int(4)]
    ensures IndexRead(host, h, Arr(a), Int(1)) == Ok(Int(2))
  {
  }
}

=== FILE: ast.dfy ===
/** The syntax tree the evaluator consumes. An external JavaScript parser
    produces it; only the node kinds the evaluator dispatches on have their
    own constructor, every other kind arrives as `Unsupported`. */
module Ast {

  /** The keyword of a declaration; only `const` makes constant bindings. */
  datatype DeclKind = VarKw | LetKw | ConstKw

  /** The token type of a literal: decimal numbers and quoted strings are
      evaluated, every other literal token (`true`, `null`, hex, regexp, ...)
      is not. */
  datatype LitToken = Decimal | StringLit | OtherLit(token: string)

  /** The operator of a binary expression: `=`, `==`, `===`, or another. */
  datatype BinOp = Assign | EqEq | EqEqEq | OtherOp(token: string)

  /** The target of a binding element: a plain name or a destructuring
      pattern. */
  datatype Pattern = Ident(name: string) | Destructuring

  /** A property key in an object literal: the literal's text, or a computed
      key expression. */
  datatype PropName = Literal(data: string) | Computed(key: Node)

  /** The left part of a for-in statement: a declaration, or anything else. */
  datatype ForInit = Decl(kind: DeclKind, list: seq<BindingElement>) | OtherInit

  /** A declared name with its optional initialiser / default (`Absent` when
      there is none). */
  datatype BindingElement = BindingElement(binding: Pattern, default: Node)

  datatype Property = Property(name: PropName, value: Node)

  datatype Node =
    | Absent
    | IfStmt(cond: Node, thenBranch: Node, elseBranch: Node)
    | BlockStmt(list: seq<Node>)
    | ExprStmt(value: Node)
    | VarDecl(kind: DeclKind, decls: seq<BindingElement>)
    | LiteralExpr(token: LitToken, data: string)
    | CallExpr(callee: Node, args: seq<Node>)
    | Var(name: string)
    | BinaryExpr(op: BinOp, x: Node, y: Node)
    | ArrowFunc(params: seq<BindingElement>, body: seq<Node>)
    | FuncDecl(fname: string, params: seq<BindingElement>, body: seq<Node>)
    | ObjectExpr(props: seq<Property>)
    | ArrayExpr(elems: seq<Node>)
    | DotExpr(obj: Node, key: string)
    | ForInStmt(init: ForInit, iterated: Node, loopBody: Node)
    | IndexExpr(target: Node, index: Node)
    | Unsupported(what: string)
  {
    /** The statement kinds whose evaluation yields no value. */
    predicate IsStatement()
    {
      IfStmt? || BlockStmt? || VarDecl? || FuncDecl? || ForInStmt?
    }
  }
}

=== FILE: base.dfy ===
/** Small shared vocabulary: optional values, results, and the Go integer
    arithmetic (64-bit `int`, truncating `%`) the evaluator relies on. */
module Base {

  datatype Option<+T> = None | Some(value: T)

  datatype Result<+T, +E> = Ok(value: T) | Err(error: E)

  const MinInt64: int := -0x8000_0000_0000_0000
  const MaxInt64: int := 0x7FFF_FFFF_FFFF_FFFF

  /** Go's `int` on the 64-bit platforms the interpreter targets. */
  type Int64 = i: int | MinInt64 <= i <= MaxInt64

  /** Two's-complement wrap-around of an arbitrary integer into 64 bits,
      which is what Go's `int` addition does on overflow. */
  function Wrap64(x: int): (r: Int64)
    ensures MinInt64 <= x <= MaxInt64 ==> r == x
    ensures (r - x) % 0x1_0000_0000_0000_0000 == 0
  {
    var m := (x - MinInt64) % 0x1_0000_0000_0000_0000;
    m + MinInt64
  }

  function Abs(x: int): nat
  {
    if x < 0 then -x else x
  }

  /** Go's `%`: the remainder of division truncated toward zero, so it takes
      the sign of the dividend (unlike Dafny's Euclidean `%`). */
  function GoRem(a: int, b: int): (r: int)
    requires b != 0
    ensures Abs(r) == Abs(a) % Abs(b)
    ensures a >= 0 ==> 0 <= r
    ensures a < 0 ==> r <= 0
  {
    if a >= 0 then a % Abs(b) else -((-a) % Abs(b))
  }
}

=== FILE: bridge.dfy ===
/** The bridge between interpreted code and Go functions (`Call` in
    machine/machine.go): the reflective checks a callee must pass, in the
    order the bridge makes them, and the invocation of a native function. */
module Bridge {
  import opened Base
  import opened Values
  import opened Errors
  import opened HostInterface
  import opened Runtime

  /** A function type the bridge accepts for `nargs` arguments: variadic or
      taking exactly `nargs` parameters, and returning an empty interface and
      an error. */
  predicate WellShaped(sig: Signature, nargs: nat)
  {
    (sig.variadic || sig.numIn == nargs) && sig.outs == [EmptyInterface, ErrorInterface]
  }

  /** The checks `Call` makes before calling, first failure first: the callee
      must be a function; a non-variadic one must take exactly `nargs`
      parameters; it must have exactly two results; the first must be an
      empty interface; the second must be an error. */
  function Check(f: Value, nargs: nat): (r: Option<Error>)
    ensures r.None? <==> SigOf(f).Some? && WellShaped(SigOf(f).value, nargs)
    ensures r == Some(NotCallable(f)) <==> SigOf(f).None?
    ensures r.Some? && r.value.WrongNumberOfArgs? <==>
              SigOf(f).Some? && !SigOf(f).value.variadic && SigOf(f).value.numIn != nargs
    ensures r.Some? && r.value.WrongNumberOfArgs? ==> r.value == WrongNumberOfArgs(nargs, SigOf(f).value.numIn)
    ensures r == Some(NoReturnValue) <==>
              SigOf(f).Some? && (SigOf(f).value.variadic || SigOf(f).value.numIn == nargs) && |SigOf(f).value.outs| != 2
    ensures SigOf(f).Some? && (SigOf(f).value.variadic || SigOf(f).value.numIn == nargs) && |SigOf(f).value.outs| == 2 ==>
              && (SigOf(f).value.outs[0] != EmptyInterface ==> r == Some(WrongReturnValue(SigOf(f).value.outs[0], EmptyInterface)))
              && (SigOf(f).value.outs[0] == EmptyInterface && SigOf(f).value.outs[1] != ErrorInterface ==>
                    r == Some(WrongReturnValue(SigOf(f).value.outs[1], ErrorInterface)))
    ensures r.Some? && r.value.WrongReturnValue? ==>
              && SigOf(f).Some? && (SigOf(f).value.variadic || SigOf(f).value.numIn == nargs)
              && |SigOf(f).value.outs| == 2
              && (r.value.wantType == EmptyInterface ==> r.value.gotType == SigOf(f).value.outs[0] != EmptyInterface)
              && (r.value.wantType == ErrorInterface ==>
                    SigOf(f).value.outs[0] == EmptyInterface && r.value.gotType == SigOf(f).value.outs[1] != ErrorInterface)
  {
    match SigOf(f)
    case None => Some(NotCallable(f))
    case Some(sig) =>
      if !sig.variadic && sig.numIn != nargs then Some(WrongNumberOfArgs(nargs, sig.numIn))
      else if |sig.outs| != 2 then Some(NoReturnValue)
      else if sig.outs[0] != EmptyInterface then Some(WrongReturnValue(sig.outs[0], EmptyInterface))
      else if sig.outs[1] != ErrorInterface then Some(WrongReturnValue(sig.outs[1], ErrorInterface))
      else None
  }

  /** Every interpreted function passes the checks, whatever the number of
      arguments: it is a variadic Go function of the expected shape. */
  lemma ClosuresAlwaysPass(serial: nat, scope: nat, params: seq<Ast.BindingElement>, body: seq<Ast.Node>, nargs: nat)
    ensures Check(Closure(serial, scope, params, body), nargs) == None
  {
  }

  /** Only function values are callable: nil, numbers, strings, booleans,
      objects and arrays are all refused as not callable. */
  lemma OnlyFunctionsAreCallable(f: Value, nargs: nat)
    requires KindOf(f) != FuncKind
    ensures Check(f, nargs) == Some(NotCallable(f))
  {
  }

  /** Calling a native function that passed the checks. `reflect.Value.Call`
      panics when a variadic function gets fewer arguments than its fixed
      parameters; otherwise the native runs, and a non-nil error result
      becomes the call's error. A native's argument-type mismatch panics
      inside reflection, which the host's reply reports as a panic. */
  function CallNative(host: Host, st: State, sig: Signature, code: nat, args: seq<Value>): (r: Outcome<Value>)
    requires WellShaped(sig, |args|)
    ensures sig.variadic && |args| + 1 < sig.numIn ==> r == Halted(Panic)
    ensures !(sig.variadic && |args| + 1 < sig.numIn) ==>
              && (r.Done? <==> host.invoke(code, args).Returned? && host.invoke(code, args).failure.None?)
              && (r.Done? ==> r.value == host.invoke(code, args).result)
              && (r.Threw? <==> host.invoke(code, args).Returned? && host.invoke(code, args).failure.Some?)
              && (r.Threw? ==> r.err == HostFailure(host.invoke(code, args).failure.value))
    ensures !r.Halted? ==> r.st == st
  {
    if sig.variadic && |args| + 1 < sig.numIn then Halted(Panic)
    else
      match host.invoke(code, args)
      case Panicked => Halted(Panic)
      case Returned(v, None) => Done(v, st)
      case Returned(_, Some(e)) => Threw(HostFailure(e), st)
  }
}

=== FILE: coercion.dfy ===
/** Truthiness and the two equality operators (machine/machine.go,
    `EvalTruth`, `EvalEqEqComparison`, `EvalEqEqEqComparison`). */
module Coercion {
  import opened Base
  import opened Values
  import opened Memory
  import opened HostInterface

  /** `EvalTruth`: nil, zero numbers, the empty string and `false` are
      false; every object, array and function value is a non-nil reference
      and so true, however empty. */
  function Truthy(host: Host, v: Value): (r: bool)
    ensures !r <==> (v == Undefined || v == Int(0) || v == Str("") || v == Bool(false)
                     || (v.Float? && host.floatIsZero(v.bits)))
  {
    match v
    case Undefined => false
    case Float(f) => !host.floatIsZero(f)
    case Int(n) => n != 0
    case Str(s) => s != ""
    case Bool(b) => b
    case Obj(_) => true
    case Arr(_) => true
    case Closure(_, _, _, _) => true
    case Native(_, _) => true
  }

  /** `==`: equality of the two operands' `fmt.Sprint` renderings. */
  function LooseEquals(host: Host, h: Heap, x: Value, y: Value): bool
  {
    host.render(h, x) == host.render(h, y)
  }

  /** `===` exactly as machine.go computes it. Go panics when both operands
      are nil (`reflect.Value.Type` of the zero Value). Functions compare by
      `reflect.Value.Pointer`, which for a func is its code pointer: every
      interpreted function is the same Go closure literal, so any two of them
      compare equal. Slices compare by the address of their backing array,
      and every zero-capacity slice points at the runtime's one zero-size
      allocation, so any two empty arrays compare equal. */
  function StrictEqualsAsWritten(host: Host, h: Heap, x: Value, y: Value): bool
    requires !(x.Undefined? && y.Undefined?)
  {
    if KindOf(x) != KindOf(y) || SigOf(x) != SigOf(y) then false
    else
      match x
      case Undefined => false
      case Bool(b) => b == y.b
      case Int(n) => n == y.i
      case Float(f) => host.floatEq(f, y.bits)
      case Str(s) => s == y.s
      case Obj(a) => a == y.addr
      case Arr(a) => a == y.addr || (|ArrAt(h, a)| == 0 && |ArrAt(h, y.addr)| == 0)
      case Closure(_, _, _, _) => y.Closure?
      case Native(_, c) => y.Native? && c == y.code
  }

  /** `===` as intended: kinds and types must agree; booleans, integers,
      floats and strings compare by value; objects, arrays and functions by
      identity. The evaluator uses this definition. */
  function StrictEquals(host: Host, x: Value, y: Value): (r: bool)
    requires !(x.Undefined? && y.Undefined?)
    ensures KindOf(x) != KindOf(y) ==> !r
    ensures (x.Obj? || x.Arr?) && KindOf(x) == KindOf(y) ==> (r <==> x == y)
    ensures x.Closure? ==> (r <==> y.Closure? && x.serial == y.serial)
    ensures x.Native? ==> (r <==> y.Native? && x.sig == y.sig && x.code == y.code)
    ensures (x.Int? || x.Bool? || x.Str?) ==> (r <==> x == y)
  {
    if KindOf(x) != KindOf(y) || SigOf(x) != SigOf(y) then false
    else
      match x
      case Undefined => false
      case Bool(b) => b == y.b
      case Int(n) => n == y.i
      case Float(f) => host.floatEq(f, y.bits)
      case Str(s) => s == y.s
      case Obj(a) => a == y.addr
      case Arr(a) => a == y.addr
      case Closure(id, _, _, _) => y.Closure? && id == y.serial
      case Native(_, c) => y.Native? && c == y.code
  }

  /** The two definitions differ only on pairs of interpreted functions and
      on pairs of empty arrays. */
  lemma AsWrittenDiffersOnlyOnFunctionsAndEmptyArrays(host: Host, h: Heap, x: Value, y: Value)
    requires !(x.Undefined? && y.Undefined?)
    requires !(x.Closure? && y.Closure?)
    requires !(x.Arr? && y.Arr? && |ArrAt(h, x.addr)| == 0 && |ArrAt(h, y.addr)| == 0)
    ensures StrictEqualsAsWritten(host, h, x, y) == StrictEquals(host, x, y)
  {
  }

  /** As written, two different interpreted functions (`() => {}` and
      `(v) => {}`, created in different scopes) are strictly equal. */
  lemma AsWrittenEquatesDistinctFunctions(host: Host, h: Heap)
    ensures var f := Closure(0, 0, [], []);
            var g := Closure(1, 5, [Ast.BindingElement(Ast.Ident("v"), Ast.Absent)], [Ast.Absent]);
            StrictEqualsAsWritten(host, h, f, g) && !StrictEquals(host, f, g)
  {
  }

  /** As written, two separately built empty arrays (`[] === []`) are
      strictly equal. */
  lemma AsWrittenEquatesDistinctEmptyArrays(host: Host, h: Heap)
    requires |h.arrs| == 2 && h.arrs[0] == [] && h.arrs[1] == []
    ensures StrictEqualsAsWritten(host, h, Arr(0), Arr(1)) && !StrictEquals(host, Arr(0), Arr(1))
  {
  }

  /** Integers and floats never compare strictly equal, so `1 === 1.0` is
      false, even where they render the same. */
  lemma IntNeverStrictlyEqualsFloat(host: Host, n: Int64, f: bv64)
    ensures !StrictEquals(host, Int(n), Float(f))
  {
  }

  /** Every value except nil and a float the host's `==` does not equate with
      itself (NaN) is strictly equal to itself. */
  lemma StrictEqualsReflexive(host: Host, x: Value)
    requires !x.Undefined?
    requires x.Float? ==> host.floatEq(x.bits, x.bits)
    ensures StrictEquals(host, x, x)
  {
  }

  /** Strict equality is symmetric whenever float equality is. */
  lemma StrictEqualsSymmetric(host: Host, x: Value, y: Value)
    requires !(x.Undefined? && y.Undefined?)
    requires x.Float? && y.Float? ==> host.floatEq(x.bits, y.bits) == host.floatEq(y.bits, x.bits)
    ensures StrictEquals(host, x, y) == StrictEquals(host, y, x)
  {
  }
}

=== FILE: errors.dfy ===
/** The error values the evaluator returns (the error types of
    machine/machine.go and scope/scope.go). Each kind is distinguishable, and
    each carries the data its Go counterpart carries, apart from the message
    text. */
module Errors {
  import Scope
  import opened Values

  datatype Error =
    | NotDeclared(name: string)
      /** scope.MutatingConstantError: the name and the constant binding. */
    | MutatingConstant(name: string, prior: Scope.Binding<Value>)
    | NotObject(item: Value)
    | NotCallable(item: Value)
    | NonIntegerIndex(item: Value, index: Value)
    | IndexOutOfBounds(item: Value, index: Value)
    | WrongNumberOfArgs(gotArgs: nat, wantArgs: nat)
    | NoReturnValue
    | WrongReturnValue(gotType: GoType, wantType: GoType)
      /** NotImplementedError, naming the construct that is not supported. */
    | NotImplemented(what: string)
      /** The error `strconv.ParseFloat` returns for a malformed number. */
    | BadNumber(text: string)
      /** A non-nil error returned by a native function. */
    | HostFailure(code: nat)
}

=== FILE: evaluator.dfy ===
/** The tree-walking evaluator (`Evaluator` in machine/machine.go): one
    function per node kind, all mutually recursive through `Eval`. Go's
    unbounded recursion becomes a fuel budget that only `Eval` spends;
    every other member is ranked below the `Eval` that calls it.

    Every member starts in a valid state and leaves a sound outcome: unless
    evaluation halted, the same scope is active again (on the error path as
    well), no binding disappeared, no constant binding changed, only the
    active scope among the existing ones was written, no heap cell was lost
    and no array changed length. */
module Evaluator {
  import opened Base
  import opened Ast
  import opened Values
  import opened Memory
  import opened Errors
  import opened HostInterface
  import opened Coercion
  import opened Runtime
  import opened Literals
  import opened Access
  import opened Bridge
  import Scope

  /** What evaluation reads but never changes: the host's routines and the
      two global tables. */
  datatype Ctx = Ctx(host: Host, globals: Globals)

  /** Pass a failed outcome on at another result type. */
  function Fail<T, U>(r: Outcome<T>): (q: Outcome<U>)
    requires !r.Done?
    ensures q.Threw? <==> r.Threw?
    ensures r.Threw? ==> q.err == r.err && q.st == r.st
  {
    if r.Threw? then Threw(r.err, r.st) else Halted(r.why)
  }

  /** A Go `(value, error)` pair from an operation that does not change the
      state. */
  function Lift(res: Result<Value, Error>, st: State): (r: Outcome<Value>)
    ensures !r.Halted? && r.st == st
    ensures r.Done? <==> res.Ok?
    ensures r.Done? ==> r.value == res.value
    ensures r.Threw? ==> r.err == res.error
  {
    match res
    case Ok(v) => Done(v, st)
    case Err(e) => Threw(e, st)
  }

  /** `Eval`: dispatch on the node kind. An absent node (Go's nil) yields
      nil; statements yield nil; an expression statement yields its
      expression's value; any other node kind is not implemented. */
  function Eval(cx: Ctx, fuel: nat, st: State, n: Node): (r: Outcome<Value>)
    requires Valid(st)
    ensures Sound(st, r)
    ensures r.Done? && n.IsStatement() ==> r.value == Undefined
    decreases fuel, 1, 0
  {
    if fuel == 0 then Halted(OutOfFuel)
    else
      var f := fuel - 1;
      match n
      case Absent => LaterReflexive(st); Done(Undefined, st)
      case IfStmt(c, t, e) => EvalIf(cx, f, st, c, t, e)
      case BlockStmt(list) => EvalBlock(cx, f, st, list)
      case ExprStmt(v) => Eval(cx, f, st, v)
      case VarDecl(kind, decls) => EvalDecls(cx, f, st, decls, kind == ConstKw)
      case LiteralExpr(token, data) => EvalLiteral(cx.host, st, token, data)
      case CallExpr(callee, args) => EvalCall(cx, f, st, callee, args)
      case Var(name) => EvalVar(cx.globals, st, name)
      case BinaryExpr(op, x, y) => EvalBinary(cx, f, st, op, x, y)
      case ArrowFunc(params, body) => MakeFunction(st, params, body)
      case FuncDecl(name, params, body) => DeclareFunction(st, name, params, body)
      case ObjectExpr(props) => EvalObject(cx, f, st, props)
      case ArrayExpr(elems) => EvalArray(cx, f, st, elems)
      case DotExpr(obj, key) => EvalDot(cx, f, st, obj, key)
      case ForInStmt(init, iterated, body) => EvalForIn(cx, f, st, init, iterated, body)
      case IndexExpr(target, index) => EvalIndex(cx, f, st, target, index)
      case Unsupported(what) => LaterReflexive(st); Threw(NotImplemented(what), st)
  }

  /** `EvalLiteralExpr`; slicing the quotes off a string token shorter than
      two characters is a Go panic. */
  function EvalLiteral(host: Host, st: State, token: LitToken, data: string): (r: Outcome<Value>)
    requires Valid(st)
    ensures r.Halted? <==> !LiteralDefined(token, data)
    ensures r.Halted? ==> r.why == Panic
    ensures !r.Halted? ==> r.st == st && Sound(st, r)
    ensures r.Done? ==> LiteralValue(host, token, data) == Ok(r.value)
    ensures r.Threw? ==> LiteralValue(host, token, data) == Err(r.err)
  {
    if !LiteralDefined(token, data) then Halted(Panic)
    else LaterReflexive(st); Lift(LiteralValue(host, token, data), st)
  }

  /** `EvalVar`: name resolution, which changes nothing. */
  function EvalVar(g: Globals, st: State, name: string): (r: Outcome<Value>)
    requires Valid(st)
    ensures !r.Halted? && r.st == st && Sound(st, r)
    ensures r.Done? <==> Lookup(g, st, name).Ok?
    ensures r.Done? ==> r.value == Lookup(g, st, name).value
    ensures r.Threw? ==> r.err == NotDeclared(name)
  {
    LaterReflexive(st);
    Lift(Lookup(g, st, name), st)
  }

  /** `GenerateJSFunction`: a new function value closing over the active
      scope, with an identity no earlier function value has. */
  function MakeFunction(st: State, params: seq<BindingElement>, body: seq<Node>): (r: Outcome<Value>)
    requires Valid(st)
    ensures r.Done? && Sound(st, r)
    ensures r.value.Closure? && r.value.scope == st.cur && r.value.params == params && r.value.body == body
    ensures r.value.serial == st.serial < r.st.serial
    ensures r.st.arena == st.arena && r.st.heap == st.heap
  {
    var t := st.(serial := st.serial + 1);
    EvolvesReflexive(st);
    Done(Closure(st.serial, st.cur, params, body), t)
  }

  /** `EvalFuncDecl`: bind the new function as a constant in the active
      scope, ignoring the error when the name is already bound constant
      there. */
  function DeclareFunction(st: State, name: string, params: seq<BindingElement>, body: seq<Node>): (r: Outcome<Value>)
    requires Valid(st)
    ensures r.Done? && r.value == Undefined && Sound(st, r)
    ensures var prior := Scope.Get(st.arena[st.cur], name);
            var now := Scope.Get(r.st.arena[r.st.cur], name);
            if prior.Some? && prior.value.constant then now == prior
            else now.Some? && now.value.constant && now.value.item.Closure?
                 && now.value.item.serial == st.serial && now.value.item.scope == st.cur
    ensures r.st.heap == st.heap && r.st.cur == st.cur && |r.st.arena| == |st.arena|
    ensures forall other :: other != name ==> Scope.Get(r.st.arena[r.st.cur], other) == Scope.Get(st.arena[st.cur], other)
    ensures forall i :: 0 <= i < |st.arena| && i != st.cur ==> r.st.arena[i] == st.arena[i]
  {
    var made := MakeFunction(st, params, body);
    var t := Bind(made.st, name, made.value, true);
    LaterTransitive(st, made.st, t);
    Done(Undefined, t)
  }

  /** `EvalIfStmt`: the condition, then exactly one branch chosen by its
      truthiness; the statement yields nil. */
  function EvalIf(cx: Ctx, fuel: nat, st: State, c: Node, t: Node, e: Node): (r: Outcome<Value>)
    requires Valid(st)
    ensures Sound(st, r)
    ensures r.Done? ==> r.value == Undefined
    ensures var rc := Eval(cx, fuel, st, c);
            && (!rc.Done? ==> r == Fail(rc))
            && (rc.Done? ==> var rb := Eval(cx, fuel, rc.st, if Truthy(cx.host, rc.value) then t else e);
                             r == if rb.Done? then Done(Undefined, rb.st) else Fail(rb))
    decreases fuel, 6, 0
  {
    var rc := Eval(cx, fuel, st, c);
    if !rc.Done? then Fail(rc)
    else
      var rb := Eval(cx, fuel, rc.st, if Truthy(cx.host, rc.value) then t else e);
      SoundAfter(st, rc.st, rb);
      if !rb.Done? then Fail(rb) else Done(Undefined, rb.st)
  }

  /** `EvalBlockStmt`: the statements in order in a new scope under the
      active one, stopping at the first error; the scope is popped on every
      path and the block yields nil. */
  function EvalBlock(cx: Ctx, fuel: nat, st: State, list: seq<Node>): (r: Outcome<Value>)
    requires Valid(st)
    ensures Sound(st, r)
    ensures r.Done? ==> r.value == Undefined
    ensures !r.Halted? ==> forall i :: 0 <= i < |st.arena| ==> r.st.arena[i] == st.arena[i]
    ensures var rs := EvalStmts(cx, fuel, Push(st, st.cur), list);
            && (rs.Halted? ==> r == Halted(rs.why))
            && (rs.Threw? ==> r == Threw(rs.err, rs.st.(cur := st.cur)))
            && (rs.Done? ==> r == Done(Undefined, rs.st.(cur := st.cur)))
    decreases fuel, 6, 0
  {
    var p := Push(st, st.cur);
    var rs := EvalStmts(cx, fuel, p, list);
    if rs.Halted? then Halted(rs.why)
    else
      PushedWorkIsLocal(st, st.cur, rs.st);
      var q := Pop(rs.st);
      if rs.Threw? then Threw(rs.err, q) else Done(Undefined, q)
  }

  /** The statements of a block, in order, up to the first error. */
  function EvalStmts(cx: Ctx, fuel: nat, st: State, list: seq<Node>): (r: Outcome<Value>)
    requires Valid(st)
    ensures Sound(st, r)
    ensures r.Done? ==> r.value == Undefined
    ensures |list| > 0 && !Eval(cx, fuel, st, list[0]).Done? ==> r == Eval(cx, fuel, st, list[0])
    ensures |list| == 1 && Eval(cx, fuel, st, list[0]).Done? ==> r == Done(Undefined, Eval(cx, fuel, st, list[0]).st)
    decreases fuel, 3, |list|
  {
    if |list| == 0 then LaterReflexive(st); Done(Undefined, st)
    else
      var r0 := Eval(cx, fuel, st, list[0]);
      if !r0.Done? then Fail(r0)
      else
        var rest := EvalStmts(cx, fuel, r0.st, list[1..]);
        SoundAfter(st, r0.st, rest);
        rest
  }

  /** `EvalBindingElement`: a nil value is replaced by the element's
      default (evaluated in the active scope); a plain name is then bound in
      the active scope with the `Set` error discarded; a destructuring
      pattern is not implemented. */
  function EvalBinding(cx: Ctx, fuel: nat, st: State, el: BindingElement, v: Value, constant: bool): (r: Outcome<Value>)
    requires Valid(st)
    ensures Sound(st, r)
    ensures r.Done? ==> r.value == Undefined && el.binding.Ident?
    ensures !v.Undefined? && el.binding.Ident? ==> r == Done(Undefined, Bind(st, el.binding.name, v, constant))
    ensures !v.Undefined? && el.binding.Destructuring? ==> r == Threw(NotImplemented("binding element"), st)
    ensures r.Done? ==> var b := Scope.Get(r.st.arena[r.st.cur], el.binding.name);
                        b.Some? && (constant ==> b.value.constant)
    decreases fuel, 2, 0
  {
    var rv := if v.Undefined? then Eval(cx, fuel, st, el.default) else (LaterReflexive(st); Done(v, st));
    if !rv.Done? then Fail(rv)
    else
      match el.binding
      case Ident(name) =>
        var t := Bind(rv.st, name, rv.value, constant);
        LaterTransitive(st, rv.st, t);
        Done(Undefined, t)
      case Destructuring => Threw(NotImplemented("binding element"), rv.st)
  }

  /** A nil value is replaced by the element's default, evaluated in the
      active scope, and the name is bound to what the default yields. */
  lemma BindingTakesDefault(cx: Ctx, fuel: nat, st: State, el: BindingElement, constant: bool)
    requires Valid(st)
    ensures var rd := Eval(cx, fuel, st, el.default);
            var r := EvalBinding(cx, fuel, st, el, Undefined, constant);
            && (!rd.Done? ==> r == rd)
            && (rd.Done? && el.binding.Ident? ==> r == Done(Undefined, Bind(rd.st, el.binding.name, rd.value, constant)))
            && (rd.Done? && el.binding.Destructuring? ==> r == Threw(NotImplemented("binding element"), rd.st))
  {
  }

  /** `EvalVarDecl`: each declared element in order, with no value given,
      so each initialiser runs; `const` makes the bindings constant. */
  function EvalDecls(cx: Ctx, fuel: nat, st: State, decls: seq<BindingElement>, constant: bool): (r: Outcome<Value>)
    requires Valid(st)
    ensures Sound(st, r)
    ensures r.Done? ==> r.value == Undefined
    ensures r.Done? ==> forall i :: 0 <= i < |decls| ==> Declared(st, r.st, decls[i], constant)
    decreases fuel, 3, |decls|
  {
    if |decls| == 0 then LaterReflexive(st); Done(Undefined, st)
    else
      var r0 := EvalBinding(cx, fuel, st, decls[0], Undefined, constant);
      if !r0.Done? then Fail(r0)
      else
        var rest := EvalDecls(cx, fuel, r0.st, decls[1..], constant);
        SoundAfter(st, r0.st, rest);
        if rest.Done? then
          DeclaredStays(st, r0.st, rest.st, decls[0], constant);
          assert forall i :: 1 <= i < |decls| ==> decls[1..][i - 1] == decls[i];
          rest
        else rest
  }

  /** After a declaration started in `s`, state `t` binds the element's name
      in `s`'s active scope, constant when the declaration was `const`. */
  ghost predicate Declared(s: State, t: State, el: BindingElement, constant: bool)
  {
    && el.binding.Ident?
    && s.cur < |t.arena|
    && el.binding.name in t.arena[s.cur].bindings
    && (constant ==> t.arena[s.cur].bindings[el.binding.name].constant)
  }

  /** A declared name stays declared through later evaluation. */
  lemma DeclaredStays(s: State, m: State, t: State, el: BindingElement, constant: bool)
    requires Later(s, m) && Later(m, t) && Declared(m, m, el, constant)
    ensures Declared(s, t, el, constant)
  {
  }

  /** Expressions evaluated left to right, up to the first error: call
      arguments, array elements, and operand pairs. */
  function EvalList(cx: Ctx, fuel: nat, st: State, nodes: seq<Node>): (r: Outcome<seq<Value>>)
    requires Valid(st)
    ensures Sound(st, r)
    ensures r.Done? ==> |r.value| == |nodes|
    ensures |nodes| > 0 && !Eval(cx, fuel, st, nodes[0]).Done? ==> r == Fail(Eval(cx, fuel, st, nodes[0]))
    ensures |nodes| > 0 && r.Done? ==> Eval(cx, fuel, st, nodes[0]).Done? && r.value[0] == Eval(cx, fuel, st, nodes[0]).value
    ensures |nodes| == 1 && Eval(cx, fuel, st, nodes[0]).Done? ==>
              r == Done([Eval(cx, fuel, st, nodes[0]).value], Eval(cx, fuel, st, nodes[0]).st)
    decreases fuel, 3, |nodes|
  {
    if |nodes| == 0 then LaterReflexive(st); Done([], st)
    else
      var r0 := Eval(cx, fuel, st, nodes[0]);
      if !r0.Done? then Fail(r0)
      else
        var rest := EvalList(cx, fuel, r0.st, nodes[1..]);
        SoundAfter(st, r0.st, rest);
        assert |nodes| == 1 ==> rest == Done([], r0.st) && [r0.value] + [] == [r0.value];
        if !rest.Done? then Fail(rest) else Done([r0.value] + rest.value, rest.st)
  }

  /** `EvalCallExpr`: the callee, then the arguments in order, then the
      call through the bridge. */
  function EvalCall(cx: Ctx, fuel: nat, st: State, callee: Node, args: seq<Node>): (r: Outcome<Value>)
    requires Valid(st)
    ensures Sound(st, r)
    ensures var rf := Eval(cx, fuel, st, callee);
            && (!rf.Done? ==> r == rf)
            && (rf.Done? ==> var ra := EvalList(cx, fuel, rf.st, args);
                             && (!ra.Done? ==> r == Fail(ra))
                             && (ra.Done? ==> r == CallValue(cx, fuel, ra.st, rf.value, ra.value)))
    decreases fuel, 6, 0
  {
    var rf := Eval(cx, fuel, st, callee);
    if !rf.Done? then Fail(rf)
    else
      var ra := EvalList(cx, fuel, rf.st, args);
      SoundAfter(st, rf.st, ra);
      if !ra.Done? then Fail(ra)
      else
        var rc := CallValue(cx, fuel, ra.st, rf.value, ra.value);
        SoundAfter(st, ra.st, rc);
        rc
  }

  /** `Call`: the bridge's checks, then either the interpreted function or
      the native one. A refused callee leaves the state as it was. */
  function CallValue(cx: Ctx, fuel: nat, st: State, fv: Value, args: seq<Value>): (r: Outcome<Value>)
    requires Valid(st)
    ensures Sound(st, r)
    ensures Check(fv, |args|).Some? ==> r == Threw(Check(fv, |args|).value, st)
    ensures fv.Closure? && r.Done? ==> r.value == Undefined
    ensures fv.Closure? && |args| > |fv.params| ==> r.Threw? && r.err == WrongNumberOfArgs(|args|, |fv.params|)
    ensures !r.Halted? ==> forall i :: 0 <= i < |st.arena| ==> r.st.arena[i] == st.arena[i]
    ensures Check(fv, |args|).None? && fv.Native? ==> r == CallNative(cx.host, st, fv.sig, fv.code, args)
    ensures Check(fv, |args|).None? && fv.Closure? ==> r == Invoke(cx, fuel, st, fv.scope, fv.params, fv.body, args)
    decreases fuel, 5, 0
  {
    match Check(fv, |args|)
    case Some(e) => LaterReflexive(st); Threw(e, st)
    case None =>
      if fv.Closure? then Invoke(cx, fuel, st, fv.scope, fv.params, fv.body, args)
      else
        LaterReflexive(st);
        CallNative(cx.host, st, fv.sig, fv.code, args)
  }

  /** The Go closure `GenerateJSFunction` returns, applied to `args`: a new
      scope under the function's defining scope becomes active; more
      arguments than parameters is an error; each parameter is bound
      (non-constant) to its argument, or to its default when the argument is
      missing or nil; then the body runs as a block. The caller's scope is
      active again afterwards on every path, and the call yields nil. */
  function Invoke(cx: Ctx, fuel: nat, st: State, defScope: nat, params: seq<BindingElement>, body: seq<Node>, args: seq<Value>): (r: Outcome<Value>)
    requires Valid(st)
    ensures Sound(st, r)
    ensures r.Done? ==> r.value == Undefined
    ensures !r.Halted? ==> forall i :: 0 <= i < |st.arena| ==> r.st.arena[i] == st.arena[i]
    ensures |args| > |params| ==>
              r.Threw? && r.err == WrongNumberOfArgs(|args|, |params|) && r.st.heap == st.heap && r.st.serial == st.serial
    ensures !r.Halted? ==> |st.arena| < |r.st.arena| && r.st.arena[|st.arena|].parent == Some(defScope)
    ensures |args| <= |params| ==> var rb := BindParams(cx, fuel, Push(st, defScope), params, args);
              && (!rb.Done? ==> r == ReturnTo(rb, st.cur))
              && (rb.Done? ==> r == ReturnTo(Eval(cx, fuel, rb.st, BlockStmt(body)), st.cur))
    decreases fuel, 4, 0
  {
    var p := Push(st, defScope);
    if |args| > |params| then
      LaterReflexive(p);
      PushedWorkIsLocal(st, defScope, p);
      Threw(WrongNumberOfArgs(|args|, |params|), p.(cur := st.cur))
    else
      var rb := BindParams(cx, fuel, p, params, args);
      if rb.Halted? then Halted(rb.why)
      else if rb.Threw? then
        PushedWorkIsLocal(st, defScope, rb.st);
        ReturnTo(rb, st.cur)
      else
        var re := Eval(cx, fuel, rb.st, BlockStmt(body));
        SoundAfter(p, rb.st, re);
        if re.Halted? then Halted(re.why)
        else
          PushedWorkIsLocal(st, defScope, re.st);
          ReturnTo(re, st.cur)
  }

  /** Leaving a function: the caller's scope `cur` is active again and the
      call yields nil; an error or a halt is passed on. */
  function ReturnTo(re: Outcome<Value>, cur: nat): (r: Outcome<Value>)
    ensures re.Halted? ==> r == re
    ensures re.Threw? ==> r == Threw(re.err, re.st.(cur := cur))
    ensures re.Done? ==> r == Done(Undefined, re.st.(cur := cur))
  {
    match re
    case Halted(why) => Halted(why)
    case Threw(e, s) => Threw(e, s.(cur := cur))
    case Done(_, s) => Done(Undefined, s.(cur := cur))
  }

  /** The parameters in order, each bound to the argument at its position
      or, past the last argument, to nil (and so to its default). */
  function BindParams(cx: Ctx, fuel: nat, st: State, params: seq<BindingElement>, args: seq<Value>): (r: Outcome<Value>)
    requires Valid(st)
    ensures Sound(st, r)
    ensures r.Done? ==> r.value == Undefined
    ensures r.Done? ==> forall i :: 0 <= i < |params| ==> params[i].binding.Ident?
    decreases fuel, 3, |params|
  {
    if |params| == 0 then LaterReflexive(st); Done(Undefined, st)
    else
      var v := if |args| > 0 then args[0] else Undefined;
      var r0 := EvalBinding(cx, fuel, st, params[0], v, false);
      if !r0.Done? then r0
      else
        var rest := BindParams(cx, fuel, r0.st, params[1..], if |args| > 0 then args[1..] else []);
        SoundAfter(st, r0.st, rest);
        assert forall i :: 1 <= i < |params| ==> params[1..][i - 1] == params[i];
        rest
  }

  /** The names of parameters that are all plain names. */
  function Names(params: seq<BindingElement>): (r: seq<string>)
    requires forall i :: 0 <= i < |params| ==> params[i].binding.Ident?
    ensures |r| == |params| && forall i :: 0 <= i < |params| ==> r[i] == params[i].binding.name
  {
    seq(|params|, i requires 0 <= i < |params| => params[i].binding.name)
  }

  /** When every parameter is a plain name and every argument is supplied
      and not nil, no default runs: binding the parameters binds each name,
      in order, to the argument at its position. */
  lemma {:induction false} BindParamsAllSupplied(cx: Ctx, fuel: nat, st: State, params: seq<BindingElement>, args: seq<Value>)
    requires Valid(st) && |args| == |params|
    requires forall i :: 0 <= i < |params| ==> params[i].binding.Ident? && !args[i].Undefined?
    ensures BindParams(cx, fuel, st, params, args) == Done(Undefined, BindEach(st, Names(params), args))
    decreases |params|
  {
    if |params| > 0 {
      var s1 := Bind(st, params[0].binding.name, args[0], false);
      assert EvalBinding(cx, fuel, st, params[0], args[0], false) == Done(Undefined, s1);
      BindParamsAllSupplied(cx, fuel, s1, params[1..], args[1..]);
      assert Names(params)[1..] == Names(params[1..]);
    }
  }

  /** `EvalBinaryExpr`: assignment, `==` and `===`; any other operator is
      not implemented and its operands are not evaluated. */
  function EvalBinary(cx: Ctx, fuel: nat, st: State, op: BinOp, x: Node, y: Node): (r: Outcome<Value>)
    requires Valid(st)
    ensures Sound(st, r)
    ensures op.OtherOp? ==> r == Threw(NotImplemented("binary expression"), st)
    ensures (op.EqEq? || op.EqEqEq?) && r.Done? ==> r.value.Bool?
    decreases fuel, 7, 0
  {
    match op
    case Assign => EvalAssign(cx, fuel, st, x, y)
    case EqEq => EvalCompare(cx, fuel, st, false, x, y)
    case EqEqEq => EvalCompare(cx, fuel, st, true, x, y)
    case OtherOp(_) => LaterReflexive(st); Threw(NotImplemented("binary expression"), st)
  }

  /** `EvalEqEqComparison` and `EvalEqEqEqComparison`: both operands left
      to right, then loose equality on their renderings (with the heap as
      it is after both) or strict equality; strict comparison of two nils is
      a Go panic. */
  function EvalCompare(cx: Ctx, fuel: nat, st: State, strict: bool, x: Node, y: Node): (r: Outcome<Value>)
    requires Valid(st)
    ensures Sound(st, r)
    ensures r.Done? ==> r.value.Bool?
    ensures var rp := EvalList(cx, fuel, st, [x, y]);
            && (!rp.Done? ==> r == Fail(rp))
            && (rp.Done? ==> var a := rp.value[0]; var b := rp.value[1];
                  && (!strict ==> r == Done(Bool(LooseEquals(cx.host, rp.st.heap, a, b)), rp.st))
                  && (strict && a.Undefined? && b.Undefined? ==> r == Halted(Panic))
                  && (strict && !(a.Undefined? && b.Undefined?) ==> r == Done(Bool(StrictEquals(cx.host, a, b)), rp.st))
                  && (strict && !(a.Undefined? && b.Undefined?) && !(a.Closure? && b.Closure?)
                      && !(a.Arr? && b.Arr? && |ArrAt(rp.st.heap, a.addr)| == 0 && |ArrAt(rp.st.heap, b.addr)| == 0) ==>
                        r == Done(Bool(StrictEqualsAsWritten(cx.host, rp.st.heap, a, b)), rp.st)))
    decreases fuel, 6, 0
  {
    var rp := EvalList(cx, fuel, st, [x, y]);
    if !rp.Done? then Fail(rp)
    else
      var a := rp.value[0];
      var b := rp.value[1];
      if !strict then Done(Bool(LooseEquals(cx.host, rp.st.heap, a, b)), rp.st)
      else if a.Undefined? && b.Undefined? then Halted(Panic)
      else if !(a.Closure? && b.Closure?) && !(a.Arr? && b.Arr? && |ArrAt(rp.st.heap, a.addr)| == 0 && |ArrAt(rp.st.heap, b.addr)| == 0) then
        AsWrittenDiffersOnlyOnFunctionsAndEmptyArrays(cx.host, rp.st.heap, a, b);
        Done(Bool(StrictEquals(cx.host, a, b)), rp.st)
      else Done(Bool(StrictEquals(cx.host, a, b)), rp.st)
  }

  /** `EvalAssignment`: the right-hand side first, then the target. A bare
      name is set in the active scope (a constant there is an error); a
      member target needs an object; an index target follows the index
      rules. The assignment yields the assigned value. */
  function EvalAssign(cx: Ctx, fuel: nat, st: State, target: Node, rhs: Node): (r: Outcome<Value>)
    requires Valid(st)
    ensures Sound(st, r)
    ensures r.Done? ==> target.Var? || target.DotExpr? || target.IndexExpr?
    ensures r.Done? ==> Eval(cx, fuel, st, rhs).Done? && r.value == Eval(cx, fuel, st, rhs).value
    ensures var ry := Eval(cx, fuel, st, rhs);
            && (!ry.Done? ==> r == ry)
            && (ry.Done? && target.Var? ==> r == AssignName(ry.st, target.name, ry.value))
            && (ry.Done? && target.DotExpr? ==> var ro := Eval(cx, fuel, ry.st, target.obj);
                  && (!ro.Done? ==> r == ro)
                  && (ro.Done? && ro.value.Undefined? ==> r == Halted(Panic))
                  && (ro.Done? && !ro.value.Undefined? ==> var w := DotWrite(ro.st.heap, ro.value, target.key, ry.value);
                        r == if w.Ok? then Done(ry.value, ro.st.(heap := w.value)) else Threw(w.error, ro.st)))
            && (ry.Done? && target.IndexExpr? ==> var rp := EvalList(cx, fuel, ry.st, [target.target, target.index]);
                  && (!rp.Done? ==> r == Fail(rp))
                  && (rp.Done? && IndexWritePanics(rp.st.heap, rp.value[0], rp.value[1], ry.value) ==> r == Halted(Panic))
                  && (rp.Done? && !IndexWritePanics(rp.st.heap, rp.value[0], rp.value[1], ry.value) ==>
                        var w := IndexWrite(cx.host, rp.st.heap, rp.value[0], rp.value[1], ry.value);
                        r == if w.Ok? then Done(ry.value, rp.st.(heap := w.value)) else Threw(w.error, rp.st)))
            && (ry.Done? && !target.Var? && !target.DotExpr? && !target.IndexExpr? ==>
                  r == Threw(NotImplemented("assignment target"), ry.st))
    decreases fuel, 6, 0
  {
    var ry := Eval(cx, fuel, st, rhs);
    if !ry.Done? then Fail(ry)
    else
      var y := ry.value;
      var s1 := ry.st;
      match target
      case Var(name) =>
        var ra := AssignName(s1, name, y);
        SoundAfter(st, s1, ra);
        ra
      case DotExpr(obj, key) =>
        var ro := Eval(cx, fuel, s1, obj);
        SoundAfter(st, s1, ro);
        if !ro.Done? then Fail(ro)
        else if ro.value.Undefined? then Halted(Panic)
        else
          var w := DotWrite(ro.st.heap, ro.value, key, y);
          if w.Err? then Threw(w.error, ro.st)
          else
            HeapUpdateIsLater(ro.st, w.value);
            LaterTransitive(st, ro.st, ro.st.(heap := w.value));
            Done(y, ro.st.(heap := w.value))
      case IndexExpr(t, i) =>
        var rp := EvalList(cx, fuel, s1, [t, i]);
        SoundAfter(st, s1, rp);
        if !rp.Done? then Fail(rp)
        else if IndexWritePanics(rp.st.heap, rp.value[0], rp.value[1], y) then Halted(Panic)
        else
          var w := IndexWrite(cx.host, rp.st.heap, rp.value[0], rp.value[1], y);
          if w.Err? then Threw(w.error, rp.st)
          else
            HeapUpdateIsLater(rp.st, w.value);
            LaterTransitive(st, rp.st, rp.st.(heap := w.value));
            Done(y, rp.st.(heap := w.value))
      case _ => Threw(NotImplemented("assignment target"), s1)
  }

  /** `EvalDotExpr`: the object, then its member (nil when missing). */
  function EvalDot(cx: Ctx, fuel: nat, st: State, obj: Node, key: string): (r: Outcome<Value>)
    requires Valid(st)
    ensures Sound(st, r)
    ensures var ro := Eval(cx, fuel, st, obj);
            && (!ro.Done? ==> r == ro)
            && (ro.Done? && ro.value.Undefined? ==> r == Halted(Panic))
            && (ro.Done? && !ro.value.Undefined? ==> r == Lift(DotRead(ro.st.heap, ro.value, key), ro.st))
    decreases fuel, 6, 0
  {
    var ro := Eval(cx, fuel, st, obj);
    if !ro.Done? then Fail(ro)
    else if ro.value.Undefined? then Halted(Panic)
    else Lift(DotRead(ro.st.heap, ro.value, key), ro.st)
  }

  /** `EvalIndexExpr`: the target, then the index, then the read. */
  function EvalIndex(cx: Ctx, fuel: nat, st: State, target: Node, index: Node): (r: Outcome<Value>)
    requires Valid(st)
    ensures Sound(st, r)
    ensures var rp := EvalList(cx, fuel, st, [target, index]);
            && (!rp.Done? ==> r == Fail(rp))
            && (rp.Done? && IndexReadPanics(cx.host, rp.st.heap, rp.value[0], rp.value[1]) ==> r == Halted(Panic))
            && (rp.Done? && !IndexReadPanics(cx.host, rp.st.heap, rp.value[0], rp.value[1]) ==>
                  r == Lift(IndexRead(cx.host, rp.st.heap, rp.value[0], rp.value[1]), rp.st))
    decreases fuel, 6, 0
  {
    var rp := EvalList(cx, fuel, st, [target, index]);
    if !rp.Done? then Fail(rp)
    else if IndexReadPanics(cx.host, rp.st.heap, rp.value[0], rp.value[1]) then Halted(Panic)
    else Lift(IndexRead(cx.host, rp.st.heap, rp.value[0], rp.value[1]), rp.st)
  }

  /** `EvalObjectExpr`: the properties in order into a new object. */
  function EvalObject(cx: Ctx, fuel: nat, st: State, props: seq<Property>): (r: Outcome<Value>)
    requires Valid(st)
    ensures Sound(st, r)
    ensures r.Done? ==> r.value.Obj? && |st.heap.objs| <= r.value.addr < |r.st.heap.objs|
    ensures r.Done? ==> forall k :: 0 <= k < |props| && props[k].name.Literal? ==> props[k].name.data in ObjAt(r.st.heap, r.value.addr)
    ensures var rm := EvalProps(cx, fuel, st, props, map[]);
            && (!rm.Done? ==> r == Fail(rm))
            && (rm.Done? ==> && r.Done? && ObjAt(r.st.heap, r.value.addr) == rm.value
                             && r.st == rm.st.(heap := r.st.heap)
                             && (forall a :: a != r.value.addr ==> ObjAt(r.st.heap, a) == ObjAt(rm.st.heap, a))
                             && r.st.heap.arrs == rm.st.heap.arrs)
    decreases fuel, 6, 0
  {
    var rm := EvalProps(cx, fuel, st, props, map[]);
    if !rm.Done? then Fail(rm)
    else
      var (h, a) := AllocObj(rm.st.heap, rm.value);
      HeapUpdateIsLater(rm.st, h);
      LaterTransitive(st, rm.st, rm.st.(heap := h));
      Done(Obj(a), rm.st.(heap := h))
  }

  /** The property key: a literal key's text, or a computed key's value
      rendered with `fmt.Sprint`. */
  function EvalPropName(cx: Ctx, fuel: nat, st: State, name: PropName): (r: Outcome<string>)
    requires Valid(st)
    ensures Sound(st, r)
    ensures name.Literal? ==> r == Done(name.data, st)
    ensures name.Computed? ==> var rk := Eval(cx, fuel, st, name.key);
              && (!rk.Done? ==> r == Fail(rk))
              && (rk.Done? ==> r == Done(cx.host.render(rk.st.heap, rk.value), rk.st))
    decreases fuel, 2, 0
  {
    match name
    case Literal(data) => LaterReflexive(st); Done(data, st)
    case Computed(key) =>
      var rk := Eval(cx, fuel, st, key);
      if !rk.Done? then Fail(rk) else Done(cx.host.render(rk.st.heap, rk.value), rk.st)
  }

  /** Each property's key, then its value, stored over any earlier entry
      with the same key. */
  function EvalProps(cx: Ctx, fuel: nat, st: State, props: seq<Property>, acc: map<string, Value>): (r: Outcome<map<string, Value>>)
    requires Valid(st)
    ensures Sound(st, r)
    ensures r.Done? ==> acc.Keys <= r.value.Keys
    ensures r.Done? ==> forall k :: 0 <= k < |props| && props[k].name.Literal? ==> props[k].name.data in r.value
    ensures r.Done? && AllLiteral(props) ==> r.value.Keys == acc.Keys + LiteralKeys(props)
    ensures r.Done? ==> forall key :: key in acc && Untouched(props, key) ==> key in r.value && r.value[key] == acc[key]
    decreases fuel, 3, |props|
  {
    if |props| == 0 then LaterReflexive(st); Done(acc, st)
    else
      var rn := EvalPropName(cx, fuel, st, props[0].name);
      if !rn.Done? then Fail(rn)
      else
        var rv := Eval(cx, fuel, rn.st, props[0].value);
        SoundAfter(st, rn.st, rv);
        if !rv.Done? then Fail(rv)
        else
          var rest := EvalProps(cx, fuel, rv.st, props[1..], acc[rn.value := rv.value]);
          SoundAfter(st, rv.st, rest);
          if rest.Done? then
            PropsStep(props, acc, rn.value, rv.value, rest.value);
            rest
          else rest
  }

  /** Every property key is a literal. */
  predicate AllLiteral(props: seq<Property>)
  {
    forall i :: 0 <= i < |props| ==> props[i].name.Literal?
  }

  /** The literal keys among the properties. */
  function LiteralKeys(props: seq<Property>): set<string>
  {
    set i | 0 <= i < |props| && props[i].name.Literal? :: props[i].name.data
  }

  /** No property can store under `key`: every key is a literal other than
      `key`. */
  predicate Untouched(props: seq<Property>, key: string)
  {
    forall i :: 0 <= i < |props| ==> props[i].name.Literal? && props[i].name.data != key
  }

  /** The facts `EvalProps` states, carried from the rest of the properties
      to the whole list once the first property stored `v` under `key`. */
  lemma PropsStep(props: seq<Property>, acc: map<string, Value>, key: string, v: Value, res: map<string, Value>)
    requires |props| > 0 && (props[0].name.Literal? ==> key == props[0].name.data)
    requires acc[key := v].Keys <= res.Keys
    requires forall k :: 0 <= k < |props[1..]| && props[1..][k].name.Literal? ==> props[1..][k].name.data in res
    requires AllLiteral(props[1..]) ==> res.Keys == acc[key := v].Keys + LiteralKeys(props[1..])
    requires forall k :: k in acc[key := v] && Untouched(props[1..], k) ==> k in res && res[k] == acc[key := v][k]
    ensures acc.Keys <= res.Keys
    ensures forall k :: 0 <= k < |props| && props[k].name.Literal? ==> props[k].name.data in res
    ensures AllLiteral(props) ==> res.Keys == acc.Keys + LiteralKeys(props)
    ensures forall k :: k in acc && Untouched(props, k) ==> k in res && res[k] == acc[k]
  {
    forall k | 0 <= k < |props| && props[k].name.Literal?
      ensures props[k].name.data in res
    {
      if k > 0 {
        assert props[1..][k - 1] == props[k];
      }
    }
    if AllLiteral(props) {
      assert AllLiteral(props[1..]) by {
        forall i | 0 <= i < |props[1..]|
          ensures props[1..][i].name.Literal?
        {
          assert props[1..][i] == props[i + 1];
        }
      }
      assert LiteralKeys(props) == {key} + LiteralKeys(props[1..]) by {
        forall x | x in LiteralKeys(props)
          ensures x in {key} + LiteralKeys(props[1..])
        {
          var i :| 0 <= i < |props| && props[i].name.Literal? && props[i].name.data == x;
          if i > 0 {
            assert props[1..][i - 1] == props[i];
          }
        }
        forall x | x in LiteralKeys(props[1..])
          ensures x in LiteralKeys(props)
        {
          var i :| 0 <= i < |props[1..]| && props[1..][i].name.Literal? && props[1..][i].name.data == x;
          assert props[1..][i] == props[i + 1];
        }
      }
    }
    forall k | k in acc && Untouched(props, k)
      ensures k in res && res[k] == acc[k]
    {
      assert k != key;
      assert Untouched(props[1..], k) by {
        forall i | 0 <= i < |props[1..]|
          ensures props[1..][i].name.Literal? && props[1..][i].name.data != k
        {
          assert props[1..][i] == props[i + 1];
        }
      }
    }
  }

  /** `EvalArrayExpr`: the elements in order into a new array. */
  function EvalArray(cx: Ctx, fuel: nat, st: State, elems: seq<Node>): (r: Outcome<Value>)
    requires Valid(st)
    ensures Sound(st, r)
    ensures r.Done? ==> r.value.Arr? && |st.heap.arrs| <= r.value.addr < |r.st.heap.arrs|
    ensures r.Done? ==> |ArrAt(r.st.heap, r.value.addr)| == |elems|
    ensures var rl := EvalList(cx, fuel, st, elems);
            && (!rl.Done? ==> r == Fail(rl))
            && (rl.Done? ==> && r.Done? && ArrAt(r.st.heap, r.value.addr) == rl.value
                             && r.st == rl.st.(heap := r.st.heap)
                             && (forall a :: a != r.value.addr ==> ArrAt(r.st.heap, a) == ArrAt(rl.st.heap, a))
                             && r.st.heap.objs == rl.st.heap.objs)
    decreases fuel, 6, 0
  {
    var rl := EvalList(cx, fuel, st, elems);
    if !rl.Done? then Fail(rl)
    else
      var (h, a) := AllocArr(rl.st.heap, rl.value);
      HeapUpdateIsLater(rl.st, h);
      LaterTransitive(st, rl.st, rl.st.(heap := h));
      Done(Arr(a), rl.st.(heap := h))
  }

  /** `EvalForInStmt`: the iterated value must be an object (nil is a Go
      panic); only a declaration is supported on the left. Its keys are
      taken once, up front, in the host's order. */
  function EvalForIn(cx: Ctx, fuel: nat, st: State, init: ForInit, iterated: Node, body: Node): (r: Outcome<Value>)
    requires Valid(st)
    ensures Sound(st, r)
    ensures r.Done? ==> r.value == Undefined && init.Decl?
    ensures r.Done? ==> Eval(cx, fuel, st, iterated).Done? && Eval(cx, fuel, st, iterated).value.Obj?
    ensures Eval(cx, fuel, st, iterated).Done? && Eval(cx, fuel, st, iterated).value.Undefined? ==> r == Halted(Panic)
    ensures var ro := Eval(cx, fuel, st, iterated);
            ro.Done? && !ro.value.Undefined? && !ro.value.Obj? ==> r == Threw(NotObject(ro.value), ro.st)
    ensures var ro := Eval(cx, fuel, st, iterated);
            ro.Done? && ro.value.Obj? && init.Decl? ==>
              r == EvalForInKeys(cx, fuel, ro.st, cx.host.keyOrder(ObjAt(ro.st.heap, ro.value.addr).Keys),
                                 init.list, init.kind == ConstKw, body)
    decreases fuel, 6, 0
  {
    var ro := Eval(cx, fuel, st, iterated);
    if !ro.Done? then Fail(ro)
    else if ro.value.Undefined? then Halted(Panic)
    else if !ro.value.Obj? then Threw(NotObject(ro.value), ro.st)
    else
      match init
      case OtherInit => Threw(NotImplemented("for statement"), ro.st)
      case Decl(kind, list) =>
        var keys := cx.host.keyOrder(ObjAt(ro.st.heap, ro.value.addr).Keys);
        var rl := EvalForInKeys(cx, fuel, ro.st, keys, list, kind == ConstKw, body);
        SoundAfter(st, ro.st, rl);
        rl
  }

  /** `t` holds a scope pushed after `s` under `s`'s active scope, binding
      `name` constant to the key `key`: the trace a `const` loop iteration
      leaves. */
  ghost predicate IterationScope(s: State, t: State, name: string, key: string)
  {
    exists i :: |s.arena| <= i < |t.arena| && t.arena[i].parent == Some(s.cur)
                && Scope.Get(t.arena[i], name) == Some(Scope.Binding(Str(key), true))
  }

  /** One iteration per key: a declaration of other than one element is
      not implemented; otherwise the key is bound in a new scope under the
      active one and the body runs there; the scope is popped on every
      path. */
  function EvalForInKeys(cx: Ctx, fuel: nat, st: State, keys: seq<string>, list: seq<BindingElement>, constant: bool, body: Node): (r: Outcome<Value>)
    requires Valid(st)
    ensures Sound(st, r)
    ensures r.Done? ==> r.value == Undefined
    ensures |keys| > 0 && |list| != 1 ==> r == Threw(NotImplemented("for-in declaration"), st)
    ensures r.Done? && |list| == 1 && list[0].binding.Ident? && constant ==>
              forall k :: 0 <= k < |keys| ==> IterationScope(st, r.st, list[0].binding.name, keys[k])
    ensures |keys| > 0 && |list| == 1 ==>
              var rb := EvalBinding(cx, fuel, Push(st, st.cur), list[0], Str(keys[0]), constant);
              && (rb.Halted? ==> r == Halted(rb.why))
              && (rb.Threw? ==> r == Threw(rb.err, rb.st.(cur := st.cur)))
              && (rb.Done? ==> var re := Eval(cx, fuel, rb.st, body);
                               && (re.Halted? ==> r == Halted(re.why))
                               && (re.Threw? ==> r == Threw(re.err, re.st.(cur := st.cur))))
    decreases fuel, 3, |keys|
  {
    if |keys| == 0 then LaterReflexive(st); Done(Undefined, st)
    else if |list| != 1 then LaterReflexive(st); Threw(NotImplemented("for-in declaration"), st)
    else
      var p := Push(st, st.cur);
      var rb := EvalBinding(cx, fuel, p, list[0], Str(keys[0]), constant);
      if rb.Halted? then Halted(rb.why)
      else if rb.Threw? then
        PushedWorkIsLocal(st, st.cur, rb.st);
        Threw(rb.err, Pop(rb.st))
      else
        var re := Eval(cx, fuel, rb.st, body);
        SoundAfter(p, rb.st, re);
        if re.Halted? then Halted(re.why)
        else
          PushedWorkIsLocal(st, st.cur, re.st);
          var q := Pop(re.st);
          if re.Threw? then Threw(re.err, q)
          else
            var rest := EvalForInKeys(cx, fuel, q, keys[1..], list, constant, body);
            SoundAfter(st, q, rest);
            if rest.Done? && list[0].binding.Ident? && constant then
              var name := list[0].binding.name;
              KeyBindingSurvives(p, re.st, name, keys[0]);
              IterationsAccumulate(st, q, rest.st, name, keys);
              rest
            else rest
  }

  /** A completed iteration hands the remaining keys on: the loop goes on
      from the state the body left, with the loop's scope active again. */
  lemma ForInKeysContinue(cx: Ctx, fuel: nat, st: State, keys: seq<string>,
                          list: seq<BindingElement>, constant: bool, body: Node)
    requires Valid(st) && |keys| > 0 && |list| == 1
    requires var rb := EvalBinding(cx, fuel, Push(st, st.cur), list[0], Str(keys[0]), constant);
             rb.Done? && Eval(cx, fuel, rb.st, body).Done?
    ensures var rb := EvalBinding(cx, fuel, Push(st, st.cur), list[0], Str(keys[0]), constant);
            var q := Eval(cx, fuel, rb.st, body).st.(cur := st.cur);
            Valid(q) && EvalForInKeys(cx, fuel, st, keys, list, constant, body) == EvalForInKeys(cx, fuel, q, keys[1..], list, constant, body)
  {
    var p := Push(st, st.cur);
    var rb := EvalBinding(cx, fuel, p, list[0], Str(keys[0]), constant);
    var re := Eval(cx, fuel, rb.st, body);
    SoundAfter(p, rb.st, re);
    PushedWorkIsLocal(st, st.cur, re.st);
  }

  /** A loop variable bound constant in a fresh scope keeps its key through
      the body. */
  lemma KeyBindingSurvives(p: State, t: State, name: string, key: string)
    requires Valid(p) && forall n :: Scope.Get(p.arena[p.cur], n) == None
    requires Later(Bind(p, name, Str(key), true), t)
    ensures Scope.Get(t.arena[p.cur], name) == Some(Scope.Binding(Str(key), true))
  {
    var b := Bind(p, name, Str(key), true);
    assert Scope.Get(p.arena[p.cur], name) == None;
    assert Scope.Extends(b.arena[p.cur], t.arena[p.cur]);
  }

  /** The first iteration's scope, pushed after `st`, and the iteration
      scopes of the remaining keys, pushed after `q`, are all iteration
      scopes of the loop started in `st`. */
  lemma IterationsAccumulate(st: State, q: State, t: State, name: string, keys: seq<string>)
    requires Valid(st) && |keys| > 0 && |st.arena| < |q.arena| && q.cur == st.cur
    requires q.arena[|st.arena|].parent == Some(st.cur)
    requires Scope.Get(q.arena[|st.arena|], name) == Some(Scope.Binding(Str(keys[0]), true))
    requires Later(q, t)
    requires forall k :: 0 <= k < |keys[1..]| ==> IterationScope(q, t, name, keys[1..][k])
    ensures forall k :: 0 <= k < |keys| ==> IterationScope(st, t, name, keys[k])
  {
    forall k | 0 <= k < |keys|
      ensures IterationScope(st, t, name, keys[k])
    {
      if k == 0 {
        assert t.arena[|st.arena|] == q.arena[|st.arena|];
      } else {
        assert keys[1..][k - 1] == keys[k];
        var i :| |q.arena| <= i < |t.arena| && t.arena[i].parent == Some(q.cur)
                 && Scope.Get(t.arena[i], name) == Some(Scope.Binding(Str(keys[k]), true));
      }
    }
  }
}

=== FILE: host.dfy ===
/** Everything the evaluator takes from outside itself, as parameters: the
    Go standard-library routines it calls but whose behaviour is not part of
    this model (`fmt.Sprint`, `strconv.ParseFloat`, float64 comparison), the
    iteration order of Go maps (randomised by the Go runtime), and the
    behaviour of host-registered native functions. */
module HostInterface {
  import opened Base
  import opened Values
  import opened Memory

  /** What a native function's call produced: its two results (the value,
      and an error if the second result was non-nil), or a Go panic. */
  datatype NativeReply = Returned(result: Value, failure: Option<nat>) | Panicked

  datatype Host = Host(
    /** `fmt.Sprint` of a value, reading the heap for composite values. */
    render: (Heap, Value) -> string,
    /** `strconv.ParseFloat(text, 64)`: the float's bits, or None on error. */
    parseFloat: string -> Option<bv64>,
    /** float64 `==`. */
    floatEq: (bv64, bv64) -> bool,
    /** float64 `== 0.0`. */
    floatIsZero: bv64 -> bool,
    /** The order `reflect.Value.MapKeys` lists an object's keys in. */
    keyOrder: set<string> -> seq<string>,
    /** The behaviour of the native function with the given code, applied to
        the arguments. Natives do not change the heap in this model. */
    invoke: (nat, seq<Value>) -> NativeReply)

  /** A key order is faithful when it lists each key exactly once, as
      `MapKeys` does. */
  ghost predicate ListsEachKeyOnce(order: seq<string>, keys: set<string>)
  {
    && (forall k :: k in keys <==> k in order)
    && (forall i, j :: 0 <= i < j < |order| ==> order[i] != order[j])
  }

  /** The host's key order behaves as `MapKeys` does on every key set. */
  ghost predicate OrdersKeys(host: Host)
  {
    forall keys :: ListsEachKeyOnce(host.keyOrder(keys), keys)
  }
}

=== FILE: literals.dfy ===
/** Literal evaluation (`EvalLiteralExpr`): a decimal token becomes an
    integer when `strconv.Atoi` accepts it and a float otherwise; a string
    token loses its surrounding quotes; no other literal token is
    evaluated. */
module Literals {
  import opened Base
  import opened Ast
  import opened Values
  import opened Errors
  import opened HostInterface

  predicate IsDigit(c: char)
  {
    '0' <= c <= '9'
  }

  predicate AllDigits(s: string)
  {
    forall i :: 0 <= i < |s| ==> IsDigit(s[i])
  }

  /** The number a string of decimal digits denotes. */
  function DigitsValue(s: string): nat
    requires AllDigits(s)
    decreases |s|
  {
    if |s| == 0 then 0
    else DigitsValue(s[..|s| - 1]) * 10 + (s[|s| - 1] as int - '0' as int)
  }

  /** `strconv.Atoi` on a 64-bit platform: an optional sign, then one or
      more decimal digits, denoting a value within int64's range. */
  function Atoi(s: string): (r: Option<Int64>)
    ensures r.Some? ==> |s| > 0
  {
    var signed := |s| > 0 && (s[0] == '-' || s[0] == '+');
    var digits := if signed then s[1..] else s;
    if |digits| == 0 || !AllDigits(digits) then None
    else
      var v: int := if signed && s[0] == '-' then -(DigitsValue(digits) as int) else DigitsValue(digits);
      if MinInt64 <= v <= MaxInt64 then Some(v) else None
  }

  /** The decimal rendering of a natural number, most significant digit
      first, without leading zeros. */
  function Itoa(n: nat): (s: string)
    decreases n
  {
    var d := [('0' as int + n % 10) as char];
    if n < 10 then d else Itoa(n / 10) + d
  }

  lemma {:induction false} ItoaDenotes(n: nat)
    ensures |Itoa(n)| > 0 && AllDigits(Itoa(n)) && DigitsValue(Itoa(n)) == n
    decreases n
  {
    var d := [('0' as int + n % 10) as char];
    if n >= 10 {
      ItoaDenotes(n / 10);
      var s := Itoa(n);
      assert s == Itoa(n / 10) + d;
      assert s[..|s| - 1] == Itoa(n / 10);
    }
  }

  /** `Atoi` reads back every int64 value's decimal rendering, with a
      leading `-` for negative values. */
  lemma AtoiReadsItoa(n: Int64)
    ensures n >= 0 ==> Atoi(Itoa(n)) == Some(n)
    ensures n < 0 ==> Atoi("-" + Itoa(-(n as int))) == Some(n)
  {
    if n >= 0 {
      ItoaDenotes(n);
      assert Itoa(n)[0] != '-' && Itoa(n)[0] != '+' by {
        assert IsDigit(Itoa(n)[0]);
      }
    } else {
      var m: nat := -(n as int);
      ItoaDenotes(m);
      var s := "-" + Itoa(m);
      assert s[1..] == Itoa(m);
    }
  }

  /** A string token's text without its first and last characters, the
      quotes. */
  function StringLiteralValue(data: string): (r: string)
    requires |data| >= 2
    ensures |r| == |data| - 2
    ensures forall i :: 0 <= i < |r| ==> r[i] == data[i + 1]
  {
    data[1..|data| - 1]
  }

  lemma QuotedRoundTrip(q: char, s: string)
    ensures StringLiteralValue([q] + s + [q]) == s
  {
    var data := [q] + s + [q];
    assert data[1..|data| - 1] == s;
  }

  /** A decimal token: an integer if `Atoi` accepts it, otherwise whatever
      `strconv.ParseFloat` makes of it, its error included. */
  function DecimalValue(host: Host, data: string): (r: Result<Value, Error>)
    ensures (r.Ok? && r.value.Int?) <==> Atoi(data).Some?
    ensures r.Ok? && r.value.Int? ==> Some(r.value.i) == Atoi(data)
    ensures r.Ok? && !r.value.Int? ==> r.value.Float? && host.parseFloat(data) == Some(r.value.bits)
    ensures r.Err? <==> Atoi(data).None? && host.parseFloat(data).None?
  {
    match Atoi(data)
    case Some(n) => Ok(Int(n))
    case None =>
      match host.parseFloat(data)
      case Some(f) => Ok(Float(f))
      case None => Err(BadNumber(data))
  }

  /** Every digit string within int64 range evaluates to that integer. */
  lemma DigitStringIsInt(host: Host, n: Int64)
    requires n >= 0
    ensures DecimalValue(host, Itoa(n)) == Ok(Int(n))
  {
    AtoiReadsItoa(n);
  }

  /** A decimal token with a fraction point or an exponent is never an
      integer, so `2.0` is a float. */
  lemma FractionIsNeverInt(host: Host, data: string, k: nat)
    requires k < |data| && (data[k] == '.' || data[k] == 'e' || data[k] == 'E')
    ensures !(DecimalValue(host, data).Ok? && DecimalValue(host, data).value.Int?)
  {
  }

  /** A literal is well formed for evaluation unless it is a string token
      shorter than its two quotes, which Go's slice expression rejects with a
      panic. */
  predicate LiteralDefined(token: LitToken, data: string)
  {
    token.StringLit? ==> |data| >= 2
  }

  /** `EvalLiteralExpr`. */
  function LiteralValue(host: Host, token: LitToken, data: string): (r: Result<Value, Error>)
    requires LiteralDefined(token, data)
    ensures token.StringLit? ==> r == Ok(Str(StringLiteralValue(data)))
    ensures token.OtherLit? ==> r == Err(NotImplemented("literal"))
    ensures token.Decimal? ==> r == DecimalValue(host, data)
  {
    match token
    case Decimal => DecimalValue(host, data)
    case StringLit => Ok(Str(StringLiteralValue(data)))
    case OtherLit(_) => Err(NotImplemented("literal"))
  }
}

=== FILE: machine.dfy ===
/** The embedding surface of a runtime (`Runtime.Run` and `Runtime.Call`
    in machine/machine.go) and properties of whole evaluations: what a
    block, a call, a declaration, an assignment, an `if` and a for-in loop
    can and cannot do to the scopes and values around them. */
module Machine {
  import opened Ast
  import opened Values
  import opened Memory
  import opened Errors
  import opened HostInterface
  import opened Coercion
  import opened Runtime
  import opened Bridge
  import opened Evaluator
  import opened Access
  import opened Base
  import Scope

  /** `Runtime.Run`: the program's statements evaluated as one block, so in
      a new scope under the runtime's active scope. */
  function Run(cx: Ctx, fuel: nat, st: State, program: seq<Node>): (r: Outcome<Value>)
    requires Valid(st)
    ensures Sound(st, r)
    ensures r.Done? ==> r.value == Undefined
    ensures !r.Halted? ==> forall i :: 0 <= i < |st.arena| ==> r.st.arena[i] == st.arena[i]
    ensures fuel == 0 ==> r == Halted(OutOfFuel)
    ensures fuel > 0 ==> r == EvalBlock(cx, fuel - 1, st, program)
  {
    Eval(cx, fuel, st, BlockStmt(program))
  }

  /** `Runtime.Call`: resolve the name, then call through the bridge. */
  function CallByName(cx: Ctx, fuel: nat, st: State, name: string, args: seq<Value>): (r: Outcome<Value>)
    requires Valid(st)
    ensures Sound(st, r)
    ensures Lookup(cx.globals, st, name).Err? ==> r == Threw(NotDeclared(name), st)
    ensures Lookup(cx.globals, st, name).Ok? ==> r == CallValue(cx, fuel, st, Lookup(cx.globals, st, name).value, args)
    ensures !r.Halted? ==> forall i :: 0 <= i < |st.arena| ==> r.st.arena[i] == st.arena[i]
  {
    match Lookup(cx.globals, st, name)
    case Err(e) => LaterReflexive(st); Threw(e, st)
    case Ok(f) => CallValue(cx, fuel, st, f, args)
  }

  /** A block's declarations die with it: after a block, every name resolves
      exactly as it did before. In particular the top-level declarations of
      a program given to `Run` are gone when it returns. */
  lemma BlockDeclarationsDoNotLeak(cx: Ctx, fuel: nat, st: State, list: seq<Node>, name: string)
    requires Valid(st) && Rooted(st.arena)
    ensures var r := Eval(cx, fuel, st, BlockStmt(list));
            !r.Halted? ==> Lookup(cx.globals, r.st, name) == Lookup(cx.globals, st, name)
  {
    var r := Eval(cx, fuel, st, BlockStmt(list));
    if !r.Halted? {
      LookupStable(cx.globals, st, r.st, name);
    }
  }

  /** A call never rebinds a name the caller sees: an interpreted function's
      bare assignments land in its own scopes, never in the caller's or the
      defining scope. */
  lemma CallsDoNotRebindCallerNames(cx: Ctx, fuel: nat, st: State, fv: Value, args: seq<Value>, name: string)
    requires Valid(st) && Rooted(st.arena)
    ensures var r := CallValue(cx, fuel, st, fv, args);
            !r.Halted? ==> Lookup(cx.globals, r.st, name) == Lookup(cx.globals, st, name)
  {
    var r := CallValue(cx, fuel, st, fv, args);
    if !r.Halted? {
      LookupStable(cx.globals, st, r.st, name);
    }
  }

  /** Re-declaring a name that is constant in the active scope is silently
      ignored: the declaration fails only if its initialiser does, and the
      constant binding stays. */
  lemma RedeclaringConstantIsIgnored(cx: Ctx, fuel: nat, st: State, kind: DeclKind, name: string, init: Node)
    requires Valid(st) && fuel > 0
    requires name in st.arena[st.cur].bindings && st.arena[st.cur].bindings[name].constant
    ensures var r := Eval(cx, fuel, st, VarDecl(kind, [BindingElement(Ident(name), init)]));
            && (Eval(cx, fuel - 1, st, init).Done? ==> r.Done?)
            && (r.Done? ==> Scope.Get(r.st.arena[r.st.cur], name) == Scope.Get(st.arena[st.cur], name))
  {
    DeclarationBindsInitialiser(cx, fuel, st, kind, name, init);
    var rd := Eval(cx, fuel - 1, st, init);
    if rd.Done? {
      assert Scope.Extends(st.arena[st.cur], rd.st.arena[st.cur]);
    }
  }

  /** Assigning to a name that is constant in the active scope fails with
      the constant's binding, once the right-hand side has been evaluated,
      and leaves the state as that evaluation left it. */
  lemma AssigningConstantFails(cx: Ctx, fuel: nat, st: State, name: string, rhs: Node)
    requires Valid(st) && fuel > 0
    requires Eval(cx, fuel - 1, st, rhs).Done?
    requires var s := Eval(cx, fuel - 1, st, rhs).st;
             name in s.arena[s.cur].bindings && s.arena[s.cur].bindings[name].constant
    ensures var s := Eval(cx, fuel - 1, st, rhs).st;
            Eval(cx, fuel, st, BinaryExpr(Assign, Var(name), rhs)) == Threw(MutatingConstant(name, s.arena[s.cur].bindings[name]), s)
  {
    var ry := Eval(cx, fuel - 1, st, rhs);
    NameAssignment(cx, fuel, st, name, rhs);
    var a := AssignName(ry.st, name, ry.value);
    assert a.Threw?;
  }

  /** `x = e` evaluates `e`, then assigns its value to `x` by name. */
  lemma NameAssignment(cx: Ctx, fuel: nat, st: State, name: string, rhs: Node)
    requires Valid(st) && fuel > 0 && Eval(cx, fuel - 1, st, rhs).Done?
    ensures var ry := Eval(cx, fuel - 1, st, rhs);
            Eval(cx, fuel, st, BinaryExpr(Assign, Var(name), rhs)) == AssignName(ry.st, name, ry.value)
  {
    AssignDispatch(cx, fuel, st, Var(name), rhs);
    AssignToName(cx, fuel - 1, st, name, rhs);
  }

  /** A binary expression is evaluated by its operator's rule. */
  lemma BinaryDispatch(cx: Ctx, fuel: nat, st: State, op: BinOp, x: Node, y: Node)
    requires Valid(st) && fuel > 0
    ensures Eval(cx, fuel, st, BinaryExpr(op, x, y)) == EvalBinary(cx, fuel - 1, st, op, x, y)
  {
  }

  /** A binary expression with `=` is evaluated by the assignment rule. */
  lemma AssignDispatch(cx: Ctx, fuel: nat, st: State, target: Node, rhs: Node)
    requires Valid(st) && fuel > 0
    ensures Eval(cx, fuel, st, BinaryExpr(Assign, target, rhs)) == EvalAssign(cx, fuel - 1, st, target, rhs)
  {
    BinaryDispatch(cx, fuel, st, Assign, target, rhs);
  }

  /** The assignment rule on a plain name hands the right-hand side's value
      to `AssignName`. */
  lemma AssignToName(cx: Ctx, fuel: nat, st: State, name: string, rhs: Node)
    requires Valid(st) && Eval(cx, fuel, st, rhs).Done?
    ensures var ry := Eval(cx, fuel, st, rhs);
            EvalAssign(cx, fuel, st, Var(name), rhs) == AssignName(ry.st, name, ry.value)
  {
    var ry := Eval(cx, fuel, st, rhs);
    assert ry.Done? && Var(name).Var?;
  }

  /** Each evaluation of a function expression makes a new function: two in
      a row are strictly unequal under the corrected `===`, while `===` as
      written in machine.go calls them equal. */
  lemma EachFunctionIsNew(cx: Ctx, fuel: nat, st: State, params: seq<BindingElement>, body: seq<Node>)
    requires Valid(st) && fuel > 1
    ensures var r1 := Eval(cx, fuel, st, ArrowFunc(params, body));
            var r2 := Eval(cx, fuel, r1.st, ArrowFunc(params, body));
            && r1.Done? && r2.Done? && r1.value.Closure? && r2.value.Closure?
            && !StrictEquals(cx.host, r1.value, r2.value)
            && StrictEqualsAsWritten(cx.host, r2.st.heap, r1.value, r2.value)
  {
  }

  /** `if` evaluates exactly the branch its condition chooses, in the state
      the condition left, and yields nil; the branch not chosen can be
      replaced by anything without changing the outcome. */
  lemma IfIgnoresUntakenBranch(cx: Ctx, fuel: nat, st: State, c: Node, t1: Node, e1: Node, t2: Node, e2: Node)
    requires Valid(st) && fuel > 0 && Eval(cx, fuel - 1, st, c).Done?
    ensures var rc := Eval(cx, fuel - 1, st, c);
            var rb := Eval(cx, fuel - 1, rc.st, if Truthy(cx.host, rc.value) then t1 else e1);
            Eval(cx, fuel, st, IfStmt(c, t1, e1)) == if rb.Done? then Done(Undefined, rb.st) else rb
    ensures var v := Eval(cx, fuel - 1, st, c).value;
            && (Truthy(cx.host, v) ==> Eval(cx, fuel, st, IfStmt(c, t1, e1)) == Eval(cx, fuel, st, IfStmt(c, t1, e2)))
            && (!Truthy(cx.host, v) ==> Eval(cx, fuel, st, IfStmt(c, t1, e1)) == Eval(cx, fuel, st, IfStmt(c, t2, e1)))
  {
  }

  /** Running `a + b` is running `a`, then, unless it failed, `b` in the
      state `a` left: statements run in order and an error in `a` stops
      everything after it. */
  lemma {:induction false} EvalStmtsAppend(cx: Ctx, fuel: nat, st: State, a: seq<Node>, b: seq<Node>)
    requires Valid(st)
    ensures var ra := EvalStmts(cx, fuel, st, a);
            EvalStmts(cx, fuel, st, a + b) == if ra.Done? then EvalStmts(cx, fuel, ra.st, b) else ra
    decreases |a|
  {
    if |a| == 0 {
      assert a + b == b;
    } else {
      assert (a + b)[0] == a[0] && (a + b)[1..] == a[1..] + b;
      var r0 := Eval(cx, fuel, st, a[0]);
      if r0.Done? {
        EvalStmtsAppend(cx, fuel, r0.st, a[1..], b);
      }
    }
  }

  /** Evaluating `a + b` evaluates `a`, then `b` in the state `a` left, and
      yields `a`'s values followed by `b`'s; the first error stops it. */
  lemma {:induction false} EvalListAppend(cx: Ctx, fuel: nat, st: State, a: seq<Node>, b: seq<Node>)
    requires Valid(st)
    ensures ListAppended(cx, fuel, st, a, b)
    decreases |a|
  {
    if |a| == 0 {
      assert a + b == b;
      var rb := EvalList(cx, fuel, st, b);
      if rb.Done? {
        assert [] + rb.value == rb.value;
      }
    } else {
      var r0 := Eval(cx, fuel, st, a[0]);
      if r0.Done? {
        EvalListAppend(cx, fuel, r0.st, a[1..], b);
        EvalListAppendStep(cx, fuel, st, a, b);
      } else {
        assert (a + b)[0] == a[0];
      }
    }
  }

  /** `EvalList` of `a + b` in terms of `EvalList` of `a` and of `b`. */
  ghost predicate ListAppended(cx: Ctx, fuel: nat, st: State, a: seq<Node>, b: seq<Node>)
    requires Valid(st)
  {
    var ra := EvalList(cx, fuel, st, a);
    EvalList(cx, fuel, st, a + b)
    == if !ra.Done? then ra
       else var rb := EvalList(cx, fuel, ra.st, b);
            if rb.Done? then Done(ra.value + rb.value, rb.st) else rb
  }

  /** The inductive step of `EvalListAppend`: from the rest of `a` to `a`. */
  lemma EvalListAppendStep(cx: Ctx, fuel: nat, st: State, a: seq<Node>, b: seq<Node>)
    requires Valid(st) && |a| > 0
    requires var r0 := Eval(cx, fuel, st, a[0]);
             r0.Done? && ListAppended(cx, fuel, r0.st, a[1..], b)
    ensures ListAppended(cx, fuel, st, a, b)
  {
    EvalListUnfold(cx, fuel, st, a);
    EvalListUnfoldAppend(cx, fuel, st, a, b);
    var r0 := Eval(cx, fuel, st, a[0]);
    var rt := EvalList(cx, fuel, r0.st, a[1..]);
    var rb := if rt.Done? then EvalList(cx, fuel, rt.st, b) else rt;
    AppendStepShape(r0, rt, EvalList(cx, fuel, r0.st, a[1..] + b), rb,
                    EvalList(cx, fuel, st, a), EvalList(cx, fuel, st, a + b));
  }

  /** One step of `EvalList` on `a + b`, whose head is `a`'s. */
  lemma EvalListUnfoldAppend(cx: Ctx, fuel: nat, st: State, a: seq<Node>, b: seq<Node>)
    requires Valid(st) && |a| > 0
    ensures var r0 := Eval(cx, fuel, st, a[0]);
            EvalList(cx, fuel, st, a + b)
            == if !r0.Done? then Fail(r0)
               else var rest := EvalList(cx, fuel, r0.st, a[1..] + b);
                    if rest.Done? then Done([r0.value] + rest.value, rest.st) else Fail(rest)
  {
    assert (a + b)[0] == a[0] && (a + b)[1..] == a[1..] + b;
    EvalListUnfold(cx, fuel, st, a + b);
  }

  /** The shape of one step of `EvalListAppend`, with the evaluations
      abstracted: `ra`/`rab` are the head `r0` consed onto the rest `rt`/`rs`. */
  lemma AppendStepShape(r0: Outcome<Value>, rt: Outcome<seq<Value>>, rs: Outcome<seq<Value>>,
                        rb: Outcome<seq<Value>>, ra: Outcome<seq<Value>>, rab: Outcome<seq<Value>>)
    requires r0.Done?
    requires ra == if rt.Done? then Done([r0.value] + rt.value, rt.st) else Fail(rt)
    requires rab == if rs.Done? then Done([r0.value] + rs.value, rs.st) else Fail(rs)
    requires rs == if !rt.Done? then rt else if rb.Done? then Done(rt.value + rb.value, rb.st) else rb
    ensures rab == if !ra.Done? then ra else if rb.Done? then Done(ra.value + rb.value, rb.st) else rb
  {
    if rt.Done? && rb.Done? {
      assert [r0.value] + (rt.value + rb.value) == ([r0.value] + rt.value) + rb.value;
    }
  }

  /** One step of `EvalList`: the head, then the rest from the state it left. */
  lemma EvalListUnfold(cx: Ctx, fuel: nat, st: State, nodes: seq<Node>)
    requires Valid(st) && |nodes| > 0
    ensures var r0 := Eval(cx, fuel, st, nodes[0]);
            EvalList(cx, fuel, st, nodes)
            == if !r0.Done? then Fail(r0)
               else var rest := EvalList(cx, fuel, r0.st, nodes[1..]);
                    if rest.Done? then Done([r0.value] + rest.value, rest.st) else Fail(rest)
  {
  }

  /** The properties of `a + b` are the properties of `a`, then those of
      `b`, starting from what `a` stored. */
  lemma {:induction false} EvalPropsAppend(cx: Ctx, fuel: nat, st: State, a: seq<Property>, b: seq<Property>, acc: map<string, Value>)
    requires Valid(st)
    ensures var ra := EvalProps(cx, fuel, st, a, acc);
            EvalProps(cx, fuel, st, a + b, acc) == if ra.Done? then EvalProps(cx, fuel, ra.st, b, ra.value) else ra
    decreases |a|
  {
    if |a| == 0 {
      assert a + b == b;
    } else {
      assert (a + b)[0] == a[0] && (a + b)[1..] == a[1..] + b;
      var rn := EvalPropName(cx, fuel, st, a[0].name);
      if rn.Done? {
        var rv := Eval(cx, fuel, rn.st, a[0].value);
        if rv.Done? {
          EvalPropsAppend(cx, fuel, rv.st, a[1..], b, acc[rn.value := rv.value]);
        }
      }
    }
  }

  /** In an object literal a later property overrides an earlier one with
      the same key: the last property `n: e`, literal or computed, has its
      key and then `e` evaluated after every earlier property, and stores
      `e`'s value under that key over whatever was stored before; a failure
      anywhere is the literal's. */
  lemma LastPropertyWins(cx: Ctx, fuel: nat, st: State, front: seq<Property>, n: PropName, e: Node)
    requires Valid(st)
    ensures var rf := EvalProps(cx, fuel, st, front, map[]);
            var r := EvalProps(cx, fuel, st, front + [Property(n, e)], map[]);
            && (!rf.Done? ==> r == rf)
            && (rf.Done? ==>
                  var rn := EvalPropName(cx, fuel, rf.st, n);
                  && (!rn.Done? ==> r == Fail(rn))
                  && (rn.Done? ==>
                        var ev := Eval(cx, fuel, rn.st, e);
                        && (!ev.Done? ==> r == Fail(ev))
                        && (ev.Done? ==> r == Done(rf.value[rn.value := ev.value], ev.st))))
  {
    EvalPropsAppend(cx, fuel, st, front, [Property(n, e)], map[]);
    var rf := EvalProps(cx, fuel, st, front, map[]);
    if rf.Done? {
      var last := [Property(n, e)];
      assert last[0] == Property(n, e) && last[1..] == [];
      var rn := EvalPropName(cx, fuel, rf.st, n);
      if rn.Done? {
        var ev := Eval(cx, fuel, rn.st, e);
        if ev.Done? {
          assert EvalProps(cx, fuel, ev.st, [], rf.value[rn.value := ev.value]) == Done(rf.value[rn.value := ev.value], ev.st);
        }
      }
    }
  }

  /** Calling an interpreted function whose parameters are all plain names,
      with every argument supplied and not nil, runs its body as a block in
      a new scope under the defining scope that binds each parameter,
      non-constant, to the argument at its position; the caller's scope is
      active again afterwards and the call yields nil. */
  lemma ClosureCallBindsArguments(cx: Ctx, fuel: nat, st: State, fv: Value, args: seq<Value>)
    requires Valid(st) && fv.Closure? && |args| == |fv.params|
    requires forall i :: 0 <= i < |args| ==> fv.params[i].binding.Ident? && !args[i].Undefined?
    ensures var s := BindEach(Push(st, fv.scope), Names(fv.params), args);
            && s.cur == |st.arena| && s.arena[s.cur].parent == Some(fv.scope)
            && (forall i :: 0 <= i < |args| && LastOccurrence(Names(fv.params), i) ==>
                  Scope.Get(s.arena[s.cur], fv.params[i].binding.name) == Some(Scope.Binding(args[i], false)))
            && (forall n :: n !in Names(fv.params) ==> Scope.Get(s.arena[s.cur], n) == None)
            && CallValue(cx, fuel, st, fv, args) == ReturnTo(Eval(cx, fuel, s, BlockStmt(fv.body)), st.cur)
  {
    var p := Push(st, fv.scope);
    BindParamsAllSupplied(cx, fuel, p, fv.params, args);
    BindEachBinds(p, Names(fv.params), args);
    Bridge.ClosuresAlwaysPass(fv.serial, fv.scope, fv.params, fv.body, |args|);
  }

  /** A one-parameter function called without an argument, or with nil,
      binds the parameter to its default's value, the default being
      evaluated in the function's new scope. */
  lemma MissingArgumentTakesDefault(cx: Ctx, fuel: nat, st: State, fv: Value, args: seq<Value>)
    requires Valid(st) && fv.Closure? && |fv.params| == 1 && fv.params[0].binding.Ident?
    requires args == [] || args == [Undefined]
    ensures var p := Push(st, fv.scope);
            var rd := Eval(cx, fuel, p, fv.params[0].default);
            && (!rd.Done? ==> CallValue(cx, fuel, st, fv, args) == ReturnTo(rd, st.cur))
            && (rd.Done? ==>
                  var s := Bind(rd.st, fv.params[0].binding.name, rd.value, false);
                  CallValue(cx, fuel, st, fv, args) == ReturnTo(Eval(cx, fuel, s, BlockStmt(fv.body)), st.cur))
  {
    var p := Push(st, fv.scope);
    Bridge.ClosuresAlwaysPass(fv.serial, fv.scope, fv.params, fv.body, |args|);
    BindingTakesDefault(cx, fuel, p, fv.params[0], false);
    var rd := Eval(cx, fuel, p, fv.params[0].default);
    if rd.Done? {
      var s := Bind(rd.st, fv.params[0].binding.name, rd.value, false);
      assert EvalBinding(cx, fuel, p, fv.params[0], Undefined, false) == Done(Undefined, s);
      assert BindParams(cx, fuel, p, fv.params, args) == BindParams(cx, fuel, s, fv.params[1..], []);
    }
  }

  /** `let x = e` / `const x = e` evaluates `e` in the active scope and binds
      `x` there to its value, constant exactly for `const`, unless `x` is
      already bound constant there; an error or halt in `e` is the
      declaration's. */
  lemma DeclarationBindsInitialiser(cx: Ctx, fuel: nat, st: State, kind: DeclKind, x: string, init: Node)
    requires Valid(st) && fuel > 0
    ensures var rd := Eval(cx, fuel - 1, st, init);
            var r := Eval(cx, fuel, st, VarDecl(kind, [BindingElement(Ident(x), init)]));
            && (!rd.Done? ==> r == rd)
            && (rd.Done? ==> r == Done(Undefined, Bind(rd.st, x, rd.value, kind == ConstKw)))
            && (rd.Done? && !IsConstant(rd.st, x) ==>
                  Scope.Get(r.st.arena[r.st.cur], x) == Some(Scope.Binding(rd.value, kind == ConstKw)))
  {
    var c := kind == ConstKw;
    var el := BindingElement(Ident(x), init);
    BindingTakesDefault(cx, fuel - 1, st, el, c);
    SingleDeclaration(cx, fuel, st, kind, el);
  }

  /** A declaration of one element is that element's binding with no value
      given, yielding nil. */
  lemma SingleDeclaration(cx: Ctx, fuel: nat, st: State, kind: DeclKind, el: BindingElement)
    requires Valid(st) && fuel > 0
    ensures var r0 := EvalBinding(cx, fuel - 1, st, el, Undefined, kind == ConstKw);
            Eval(cx, fuel, st, VarDecl(kind, [el])) == if r0.Done? then Done(Undefined, r0.st) else Fail(r0)
  {
    var c := kind == ConstKw;
    var r0 := EvalBinding(cx, fuel - 1, st, el, Undefined, c);
    assert Eval(cx, fuel, st, VarDecl(kind, [el])) == EvalDecls(cx, fuel - 1, st, [el], c);
    assert EvalDecls(cx, fuel - 1, st, [el], c)
           == (if r0.Done? then EvalDecls(cx, fuel - 1, r0.st, [], c) else Fail(r0));
  }

  /** After `o.k = e` succeeds, reading `o.k` gives `e`'s value, and so does
      reading `k` through any other holder of the same object. */
  lemma MemberAssignmentReadsBack(cx: Ctx, fuel: nat, st: State, o: Node, k: string, e: Node, alias: Value)
    requires Valid(st)
    requires EvalAssign(cx, fuel, st, DotExpr(o, k), e).Done?
    ensures var r := EvalAssign(cx, fuel, st, DotExpr(o, k), e);
            var ro := Eval(cx, fuel, Eval(cx, fuel, st, e).st, o);
            && ro.Done? && ro.value.Obj?
            && (alias == ro.value && ro.value.addr < |ro.st.heap.objs| ==> DotRead(r.st.heap, alias, k) == Ok(r.value))
  {
    var ry := Eval(cx, fuel, st, e);
    var ro := Eval(cx, fuel, ry.st, o);
    if alias == ro.value && ro.value.addr < |ro.st.heap.objs| {
      MemberAfterPutKey(ro.st.heap, ro.value.addr, k, ry.value);
    }
  }

  /** An array literal holds its elements' values in order: indexing it at
      a position reads the value the element at that position evaluated
      to. */
  lemma ArrayLiteralIndexing(cx: Ctx, fuel: nat, st: State, elems: seq<Node>, k: Int64)
    requires Valid(st) && fuel > 0 && 0 <= k < |elems|
    requires Eval(cx, fuel, st, ArrayExpr(elems)).Done?
    ensures var r := Eval(cx, fuel, st, ArrayExpr(elems));
            var rl := EvalList(cx, fuel - 1, st, elems);
            && rl.Done?
            && !IndexReadPanics(cx.host, r.st.heap, r.value, Int(k))
            && IndexRead(cx.host, r.st.heap, r.value, Int(k)) == Ok(rl.value[k])
  {
    assert Eval(cx, fuel, st, ArrayExpr(elems)) == EvalArray(cx, fuel - 1, st, elems);
  }

  /** A for-in over the keys `k1 + k2` runs the iterations for `k1`, then,
      unless one of them failed, those for `k2` from the state they left.
      With the one-key step of `EvalForInKeys`, the body runs once per key,
      in key order, each time in a new scope binding the key. */
  lemma {:induction false} ForInKeysAppend(cx: Ctx, fuel: nat, st: State, k1: seq<string>, k2: seq<string>,
                                           list: seq<BindingElement>, constant: bool, body: Node)
    requires Valid(st)
    ensures ForInAppended(cx, fuel, st, k1, k2, list, constant, body)
    decreases |k1|
  {
    if |k1| == 0 {
      assert k1 + k2 == k2;
    } else if |list| != 1 {
      ForInKeysAppendRejects(cx, fuel, st, k1, k2, list, constant, body);
    } else if IterationCompletes(cx, fuel, st, k1[0], list, constant, body) {
      var rb := EvalBinding(cx, fuel, Push(st, st.cur), list[0], Str(k1[0]), constant);
      var q := Eval(cx, fuel, rb.st, body).st.(cur := st.cur);
      ForInKeysAppend(cx, fuel, q, k1[1..], k2, list, constant, body);
      ForInKeysAppendNext(cx, fuel, st, k1, k2, list, constant, body);
    } else {
      ForInKeysAppendStops(cx, fuel, st, k1, k2, list, constant, body);
    }
  }

  /** The loop's iteration for `key` binds it and runs the body without
      error or halt. */
  ghost predicate IterationCompletes(cx: Ctx, fuel: nat, st: State, key: string,
                                     list: seq<BindingElement>, constant: bool, body: Node)
    requires Valid(st)
  {
    && |list| == 1
    && var rb := EvalBinding(cx, fuel, Push(st, st.cur), list[0], Str(key), constant);
       rb.Done? && Eval(cx, fuel, rb.st, body).Done?
  }

  /** `EvalForInKeys` of `k1 + k2` in terms of `EvalForInKeys` of `k1` and of `k2`. */
  ghost predicate ForInAppended(cx: Ctx, fuel: nat, st: State, k1: seq<string>, k2: seq<string>,
                                list: seq<BindingElement>, constant: bool, body: Node)
    requires Valid(st)
  {
    var r1 := EvalForInKeys(cx, fuel, st, k1, list, constant, body);
    EvalForInKeys(cx, fuel, st, k1 + k2, list, constant, body)
    == if r1.Done? then EvalForInKeys(cx, fuel, r1.st, k2, list, constant, body) else r1
  }

  /** The first iteration of `k1` does not complete: neither does the loop
      over `k1 + k2`, in the same way. */
  lemma ForInKeysAppendStops(cx: Ctx, fuel: nat, st: State, k1: seq<string>, k2: seq<string>,
                             list: seq<BindingElement>, constant: bool, body: Node)
    requires Valid(st) && |k1| > 0 && |list| == 1 && !IterationCompletes(cx, fuel, st, k1[0], list, constant, body)
    ensures ForInAppended(cx, fuel, st, k1, k2, list, constant, body)
  {
    assert (k1 + k2)[0] == k1[0];
    var rb := EvalBinding(cx, fuel, Push(st, st.cur), list[0], Str(k1[0]), constant);
    if rb.Done? {
      var re := Eval(cx, fuel, rb.st, body);
      var r := if re.Halted? then Halted(re.why) else Threw(re.err, re.st.(cur := st.cur));
      ForInKeysFirstFails(cx, fuel, st, k1, list, constant, body, r);
      ForInKeysFirstFails(cx, fuel, st, k1 + k2, list, constant, body, r);
    }
  }

  /** The body fails in the first iteration: so does the loop, with the
      loop's scope active again. */
  lemma ForInKeysFirstFails(cx: Ctx, fuel: nat, st: State, keys: seq<string>,
                            list: seq<BindingElement>, constant: bool, body: Node, r: Outcome<Value>)
    requires Valid(st) && |keys| > 0 && |list| == 1
    requires var rb := EvalBinding(cx, fuel, Push(st, st.cur), list[0], Str(keys[0]), constant);
             && rb.Done?
             && var re := Eval(cx, fuel, rb.st, body);
                && !re.Done?
                && r == if re.Halted? then Halted(re.why) else Threw(re.err, re.st.(cur := st.cur))
    ensures EvalForInKeys(cx, fuel, st, keys, list, constant, body) == r
  {
  }

  /** A declaration of other than one element is rejected before any key,
      for `k1` and for `k1 + k2` alike. */
  lemma ForInKeysAppendRejects(cx: Ctx, fuel: nat, st: State, k1: seq<string>, k2: seq<string>,
                               list: seq<BindingElement>, constant: bool, body: Node)
    requires Valid(st) && |k1| > 0 && |list| != 1
    ensures ForInAppended(cx, fuel, st, k1, k2, list, constant, body)
  {
    assert |k1 + k2| > 0;
  }

  /** The first iteration of `k1` completes: the rest of `k1 + k2` continues
      from the state it left. */
  lemma ForInKeysAppendNext(cx: Ctx, fuel: nat, st: State, k1: seq<string>, k2: seq<string>,
                            list: seq<BindingElement>, constant: bool, body: Node)
    requires Valid(st) && |k1| > 0 && |list| == 1
    requires var rb := EvalBinding(cx, fuel, Push(st, st.cur), list[0], Str(k1[0]), constant);
             && rb.Done? && Eval(cx, fuel, rb.st, body).Done?
             && ForInAppended(cx, fuel, Eval(cx, fuel, rb.st, body).st.(cur := st.cur), k1[1..], k2, list, constant, body)
    ensures ForInAppended(cx, fuel, st, k1, k2, list, constant, body)
  {
    ForInKeysContinue(cx, fuel, st, k1, list, constant, body);
    ForInKeysAppendContinue(cx, fuel, st, k1, k2, list, constant, body);
  }

  /** The loop over `k1 + k2` goes on, after a completed first iteration,
      with the rest of `k1` followed by `k2`. */
  lemma ForInKeysAppendContinue(cx: Ctx, fuel: nat, st: State, k1: seq<string>, k2: seq<string>,
                                list: seq<BindingElement>, constant: bool, body: Node)
    requires Valid(st) && |k1| > 0 && |list| == 1
    requires var rb := EvalBinding(cx, fuel, Push(st, st.cur), list[0], Str(k1[0]), constant);
             rb.Done? && Eval(cx, fuel, rb.st, body).Done?
    ensures var rb := EvalBinding(cx, fuel, Push(st, st.cur), list[0], Str(k1[0]), constant);
            var q := Eval(cx, fuel, rb.st, body).st.(cur := st.cur);
            Valid(q) && EvalForInKeys(cx, fuel, st, k1 + k2, list, constant, body)
                        == EvalForInKeys(cx, fuel, q, k1[1..] + k2, list, constant, body)
  {
    var k := k1 + k2;
    assert k[0] == k1[0] && k[1..] == k1[1..] + k2;
    ForInKeysContinue(cx, fuel, st, k, list, constant, body);
  }

  /** A completed `for (const x in o)` ran an iteration for every key `o`
      had when the loop started, each in its own scope under the active one
      with `x` bound constant to that key, provided the host lists each key
      once as Go's `MapKeys` does. */
  lemma ForInVisitsEveryKey(cx: Ctx, fuel: nat, st: State, x: string, d: Node, iterated: Node, body: Node)
    requires Valid(st) && fuel > 0 && OrdersKeys(cx.host)
    ensures var r := Eval(cx, fuel, st, ForInStmt(Decl(ConstKw, [BindingElement(Ident(x), d)]), iterated, body));
            var ro := Eval(cx, fuel - 1, st, iterated);
            r.Done? ==> && ro.Done? && ro.value.Obj?
                        && forall key :: key in ObjAt(ro.st.heap, ro.value.addr) ==> IterationScope(ro.st, r.st, x, key)
  {
    var r := Eval(cx, fuel, st, ForInStmt(Decl(ConstKw, [BindingElement(Ident(x), d)]), iterated, body));
    var ro := Eval(cx, fuel - 1, st, iterated);
    if r.Done? {
      var list := [BindingElement(Ident(x), d)];
      var keys := cx.host.keyOrder(ObjAt(ro.st.heap, ro.value.addr).Keys);
      assert ListsEachKeyOnce(keys, ObjAt(ro.st.heap, ro.value.addr).Keys);
      assert r == EvalForIn(cx, fuel - 1, st, Decl(ConstKw, list), iterated, body);
      assert r == EvalForInKeys(cx, fuel - 1, ro.st, keys, list, true, body);
      forall key | key in ObjAt(ro.st.heap, ro.value.addr)
        ensures IterationScope(ro.st, r.st, x, key)
      {
        assert key in keys;
        var k :| 0 <= k < |keys| && keys[k] == key;
      }
    }
  }
}

=== FILE: memory.dfy ===
/** The heap behind object and array values. Objects are Go
    `map[string]interface{}` and arrays `[]interface{}`; both are mutated in
    place, so a write is seen through every value holding the address. The
    evaluator never grows or shrinks an existing array. An address the heap
    has not allocated reads as an empty object or array and ignores writes;
    the evaluator itself never produces one. */
module Memory {
  import opened Values

  datatype Heap = Heap(objs: seq<map<string, Value>>, arrs: seq<seq<Value>>)

  const EmptyHeap: Heap := Heap([], [])

  function ObjAt(h: Heap, a: nat): map<string, Value>
  {
    if a < |h.objs| then h.objs[a] else map[]
  }

  function ArrAt(h: Heap, a: nat): seq<Value>
  {
    if a < |h.arrs| then h.arrs[a] else []
  }

  /** Dot-style read: the value under `key`, or Undefined when the key is
      missing. */
  function Member(h: Heap, a: nat, key: string): Value
  {
    if key in ObjAt(h, a) then ObjAt(h, a)[key] else Undefined
  }

  /** `k` has as many objects and arrays as `h`, and every array its old
      length: what an in-place write leaves. */
  predicate SameShape(h: Heap, k: Heap)
  {
    && |k.objs| == |h.objs| && |k.arrs| == |h.arrs|
    && forall a :: 0 <= a < |h.arrs| ==> |k.arrs[a]| == |h.arrs[a]|
  }

  /** Allocate a new object holding `m`, at an address no object had. */
  function AllocObj(h: Heap, m: map<string, Value>): (r: (Heap, nat))
    ensures r.1 == |h.objs| && |r.0.objs| == |h.objs| + 1
    ensures ObjAt(r.0, r.1) == m
    ensures forall a :: a != r.1 ==> ObjAt(r.0, a) == ObjAt(h, a)
    ensures r.0.arrs == h.arrs
  {
    (h.(objs := h.objs + [m]), |h.objs|)
  }

  /** Allocate a new array holding `s`, at an address no array had. */
  function AllocArr(h: Heap, s: seq<Value>): (r: (Heap, nat))
    ensures r.1 == |h.arrs| && |r.0.arrs| == |h.arrs| + 1
    ensures ArrAt(r.0, r.1) == s
    ensures forall a :: a != r.1 ==> ArrAt(r.0, a) == ArrAt(h, a)
    ensures r.0.objs == h.objs
  {
    (h.(arrs := h.arrs + [s]), |h.arrs|)
  }

  /** `reflect.Value.SetMapIndex` on object `a`: stores `v` under `key`, and
      deletes `key` when `v` is Undefined (Go's zero reflect.Value). No other
      key of `a` and no other object or array changes. */
  function PutKey(h: Heap, a: nat, key: string, v: Value): (r: Heap)
    ensures a < |h.objs| && v.Undefined? ==> key !in ObjAt(r, a)
    ensures a < |h.objs| && !v.Undefined? ==> key in ObjAt(r, a) && ObjAt(r, a)[key] == v
    ensures forall k :: k != key ==> Member(r, a, k) == Member(h, a, k)
    ensures forall k :: k != key ==> (k in ObjAt(r, a) <==> k in ObjAt(h, a))
    ensures forall b :: b != a ==> ObjAt(r, b) == ObjAt(h, b)
    ensures |r.objs| == |h.objs| && r.arrs == h.arrs
  {
    if a < |h.objs| then
      var m := h.objs[a];
      h.(objs := h.objs[a := if v.Undefined? then m - {key} else m[key := v]])
    else
      h
  }

  /** In-place element write on array `a`: element `i` becomes `v`; the
      length, the other elements and all other storage are unchanged. */
  function PutElem(h: Heap, a: nat, i: nat, v: Value): (r: Heap)
    requires i < |ArrAt(h, a)|
    ensures |ArrAt(r, a)| == |ArrAt(h, a)| && ArrAt(r, a)[i] == v
    ensures forall j :: 0 <= j < |ArrAt(h, a)| && j != i ==> ArrAt(r, a)[j] == ArrAt(h, a)[j]
    ensures forall b :: b != a ==> ArrAt(r, b) == ArrAt(h, b)
    ensures |r.arrs| == |h.arrs| && r.objs == h.objs && SameShape(h, r)
  {
    h.(arrs := h.arrs[a := h.arrs[a][i := v]])
  }

  /** Reading a key back after writing it gives the written value, even
      when that value is Undefined (the key is then gone, and a missing key
      reads as Undefined). */
  lemma MemberAfterPutKey(h: Heap, a: nat, key: string, v: Value)
    requires a < |h.objs|
    ensures Member(PutKey(h, a, key, v), a, key) == v
  {
  }

  /** Two values holding the same object address see one write: a write
      through one address is visible at that address and at no other. */
  lemma PutKeyAliasing(h: Heap, a: nat, b: nat, key: string, v: Value)
    requires a < |h.objs|
    ensures Member(PutKey(h, a, key, v), b, key) == (if b == a then v else Member(h, b, key))
  {
  }
}

=== FILE: runtime.dfy ===
/** The execution context (`Runtime` in machine/machine.go): the scope arena
    with the handle of the active scope, the heap, and the two global tables,
    together with name resolution and the scope-stack operations the
    evaluator performs. Scopes live in an arena indexed by handle; a scope's
    parent is a handle, and a scope left behind by a finished block stays in
    the arena (a closure may still hold its handle). */
module Runtime {
  import opened Base
  import Scope
  import opened Values
  import opened Memory
  import opened Errors

  /** Runtime-local globals, then the engine's shared globals. The evaluator
      only reads them. */
  datatype Globals = Globals(runtime: map<string, Value>, engine: map<string, Value>)

  /** `serial` counts the interpreted functions created so far; it gives
      each one its identity. */
  datatype State = State(arena: seq<Scope.S<Value>>, cur: nat, heap: Heap, serial: nat)

  /** Why evaluation stopped without a result: a Go runtime panic (which ends
      the process), or the model's evaluation budget running out. */
  datatype Halt = Panic | OutOfFuel

  datatype Outcome<+T> = Done(value: T, st: State) | Threw(err: Error, st: State) | Halted(why: Halt)

  ghost predicate Valid(st: State)
  {
    st.cur < |st.arena|
  }

  /** Every scope's parent was created before it, as it is when each new
      scope's parent is an existing scope: the parent chain then always
      reaches a root. */
  ghost predicate Rooted(arena: seq<Scope.S<Value>>)
  {
    forall i :: 0 <= i < |arena| && arena[i].parent.Some? ==> arena[i].parent.value < i
  }

  /** `NewRuntime`: a single root scope, active, over the host's heap. */
  function Initial(heap: Heap): (st: State)
    ensures Valid(st) && Rooted(st.arena) && st.arena[st.cur].parent == None
    ensures forall name :: Scope.Get(st.arena[st.cur], name) == None
  {
    State([Scope.New(None)], 0, heap, 0)
  }

  /** `t` is a later state than `s`: no scope lost, no parent changed, no
      binding removed, no constant binding changed; no heap cell lost, no
      array resized; no function identity reused. */
  ghost predicate Evolves(s: State, t: State)
  {
    && |s.arena| <= |t.arena|
    && (forall i :: 0 <= i < |s.arena| ==> Scope.Extends(s.arena[i], t.arena[i]))
    && |s.heap.objs| <= |t.heap.objs|
    && |s.heap.arrs| <= |t.heap.arrs|
    && (forall a :: 0 <= a < |s.heap.arrs| ==> |t.heap.arrs[a]| == |s.heap.arrs[a]|)
    && s.serial <= t.serial
  }

  /** Of the scopes `s` already had, only its active one may differ in `t`:
      code running in a scope writes bindings there and in scopes it creates,
      never in a scope further out. */
  ghost predicate Confined(s: State, t: State)
  {
    && |s.arena| <= |t.arena|
    && (forall i :: 0 <= i < |s.arena| && i != s.cur ==> t.arena[i] == s.arena[i])
  }

  /** `t` is what evaluation starting in `s` may leave behind: an evolution
      of `s`, confined to its active scope, with that same scope active
      again, so that every scope pushed was popped. */
  ghost predicate Later(s: State, t: State)
  {
    Evolves(s, t) && t.cur == s.cur && Confined(s, t)
  }

  /** An outcome is sound for a start state when, unless evaluation halted,
      its state is later than the start state. Failures keep the discipline
      too: a scope pushed is popped on the error path as well. */
  ghost predicate Sound<T>(st: State, r: Outcome<T>)
  {
    !r.Halted? ==> Later(st, r.st)
  }

  lemma LaterReflexive(s: State)
    ensures Later(s, s)
  {
    EvolvesReflexive(s);
  }

  lemma LaterTransitive(a: State, b: State, c: State)
    requires Later(a, b) && Later(b, c)
    ensures Later(a, c)
  {
    EvolvesTransitive(a, b, c);
  }

  /** Composition: an outcome sound for an intermediate state that is itself
      later than `st` is sound for `st`. */
  lemma SoundAfter<T>(st: State, mid: State, r: Outcome<T>)
    requires Later(st, mid) && Sound(mid, r)
    ensures Sound(st, r)
  {
    if !r.Halted? {
      LaterTransitive(st, mid, r.st);
    }
  }

  /** Replacing the heap by one of the same shape, or by one with more cells
      and the old arrays' lengths kept, leaves a later state. */
  lemma HeapUpdateIsLater(st: State, h: Heap)
    requires |st.heap.objs| <= |h.objs| && |st.heap.arrs| <= |h.arrs|
    requires forall a :: 0 <= a < |st.heap.arrs| ==> |h.arrs[a]| == |st.heap.arrs[a]|
    ensures Later(st, st.(heap := h))
  {
    EvolvesReflexive(st);
  }

  /** Work done in a freshly pushed scope changes no scope that existed
      before the push, and restoring the active handle afterwards gives a
      later state. */
  lemma PushedWorkIsLocal(st: State, parent: nat, q: State)
    requires Valid(st) && Later(Push(st, parent), q)
    ensures Valid(q) && q.cur == |st.arena| && q.arena[q.cur].parent == Some(parent)
    ensures forall i :: 0 <= i < |st.arena| ==> q.arena[i] == st.arena[i]
    ensures Later(st, q.(cur := st.cur))
  {
    var p := Push(st, parent);
    assert forall i :: 0 <= i < |st.arena| ==> p.arena[i] == st.arena[i];
    EvolvesTransitive(st, p, q);
  }

  lemma EvolvesReflexive(s: State)
    ensures Evolves(s, s)
  {
    forall i | 0 <= i < |s.arena|
      ensures Scope.Extends(s.arena[i], s.arena[i])
    {
      Scope.ExtendsReflexive(s.arena[i]);
    }
  }

  lemma EvolvesTransitive(a: State, b: State, c: State)
    requires Evolves(a, b) && Evolves(b, c)
    ensures Evolves(a, c)
  {
    forall i | 0 <= i < |a.arena|
      ensures Scope.Extends(a.arena[i], c.arena[i])
    {
      Scope.ExtendsTransitive(a.arena[i], b.arena[i], c.arena[i]);
    }
  }

  /** `scope.New(parent)` made the active scope. */
  function Push(st: State, parent: nat): (r: State)
    ensures Evolves(st, r) && Valid(r)
    ensures r.cur == |st.arena| && |r.arena| == |st.arena| + 1
    ensures r.arena[r.cur].parent == Some(parent)
    ensures forall name :: Scope.Get(r.arena[r.cur], name) == None
    ensures r.heap == st.heap && r.serial == st.serial
    ensures forall i :: 0 <= i < |st.arena| ==> r.arena[i] == st.arena[i]
    ensures Rooted(st.arena) && parent < |st.arena| ==> Rooted(r.arena)
  {
    var r := st.(arena := st.arena + [Scope.New(Some(parent))], cur := |st.arena|);
    assert forall i :: 0 <= i < |st.arena| ==> r.arena[i] == st.arena[i];
    EvolvesReflexive(st);
    r
  }

  /** `Scope = Scope.Parent`: the active scope's parent becomes active. */
  function Pop(st: State): State
    requires Valid(st) && st.arena[st.cur].parent.Some?
  {
    st.(cur := st.arena[st.cur].parent.value)
  }

  /** `Scope.Set` in the active scope with its error discarded, as
      declarations, parameters and loop variables do: the name gets the new
      binding unless it is already bound constant there, in which case
      nothing changes. */
  function Bind(st: State, name: string, v: Value, constant: bool): (r: State)
    requires Valid(st)
    ensures Evolves(st, r) && r.cur == st.cur && r.heap == st.heap && |r.arena| == |st.arena|
    ensures var prior := Scope.Get(st.arena[st.cur], name);
            Scope.Get(r.arena[r.cur], name)
            == if prior.Some? && prior.value.constant then prior else Some(Scope.Binding(v, constant))
    ensures forall i :: 0 <= i < |st.arena| && i != st.cur ==> r.arena[i] == st.arena[i]
    ensures forall other :: other != name ==> Scope.Get(r.arena[r.cur], other) == Scope.Get(st.arena[st.cur], other)
  {
    var s := Scope.Set(st.arena[st.cur], name, Scope.Binding(v, constant)).0;
    Scope.SetExtends(st.arena[st.cur], name, Scope.Binding(v, constant));
    var r := st.(arena := st.arena[st.cur := s]);
    EvolvesReflexive(st);
    r
  }

  /** `name` is bound constant in the active scope. */
  ghost predicate IsConstant(st: State, name: string)
    requires Valid(st)
  {
    name in st.arena[st.cur].bindings && st.arena[st.cur].bindings[name].constant
  }

  /** No later entry of `names` repeats the name at position `i`. */
  predicate LastOccurrence(names: seq<string>, i: nat)
    requires i < |names|
  {
    forall j :: i < j < |names| ==> names[j] != names[i]
  }

  /** `Bind` of each name to the value at its position, in order, as
      non-constant bindings in the active scope: how parameters receive
      their arguments. */
  function BindEach(st: State, names: seq<string>, vs: seq<Value>): (r: State)
    requires Valid(st) && |names| == |vs|
    ensures Later(st, r) && Valid(r) && r.heap == st.heap && r.serial == st.serial && |r.arena| == |st.arena|
    decreases |names|
  {
    if |names| == 0 then LaterReflexive(st); st
    else
      var s1 := Bind(st, names[0], vs[0], false);
      var r := BindEach(s1, names[1..], vs[1..]);
      LaterTransitive(st, s1, r);
      r
  }

  /** After `BindEach`, a name bound nowhere in the list is as it was, and a
      name that was not constant holds the value at its last position. */
  lemma {:induction false} BindEachBinds(st: State, names: seq<string>, vs: seq<Value>)
    requires Valid(st) && |names| == |vs|
    ensures var r := BindEach(st, names, vs);
            forall n :: n !in names ==> Scope.Get(r.arena[r.cur], n) == Scope.Get(st.arena[st.cur], n)
    ensures var r := BindEach(st, names, vs);
            forall i :: 0 <= i < |names| && LastOccurrence(names, i) && !IsConstant(st, names[i]) ==>
              Scope.Get(r.arena[r.cur], names[i]) == Some(Scope.Binding(vs[i], false))
    decreases |names|
  {
    if |names| > 0 {
      var s1 := Bind(st, names[0], vs[0], false);
      var r := BindEach(st, names, vs);
      assert r == BindEach(s1, names[1..], vs[1..]);
      BindEachBinds(s1, names[1..], vs[1..]);
      forall n | n !in names
        ensures Scope.Get(r.arena[r.cur], n) == Scope.Get(st.arena[st.cur], n)
      {
        assert n !in names[1..];
      }
      forall i | 0 <= i < |names| && LastOccurrence(names, i) && !IsConstant(st, names[i])
        ensures Scope.Get(r.arena[r.cur], names[i]) == Some(Scope.Binding(vs[i], false))
      {
        if i == 0 {
          assert names[0] !in names[1..] by {
            forall j | 0 <= j < |names[1..]|
              ensures names[1..][j] != names[0]
            {
              assert names[1..][j] == names[j + 1];
            }
          }
        } else {
          assert names[1..][i - 1] == names[i] && vs[1..][i - 1] == vs[i];
          assert LastOccurrence(names[1..], i - 1) by {
            forall j | i - 1 < j < |names[1..]|
              ensures names[1..][j] != names[1..][i - 1]
            {
              assert names[1..][j] == names[j + 1];
            }
          }
          assert !IsConstant(s1, names[i]);
        }
      }
    }
  }

  /** Bare-name assignment (`x = v`): `Scope.Set` of a non-constant binding
      in the active scope, whether or not an outer scope binds the name, with
      the constant-mutation error passed on. */
  function AssignName(st: State, name: string, v: Value): (r: Outcome<Value>)
    requires Valid(st)
    ensures !r.Halted? && Sound(st, r)
    ensures var prior := Scope.Get(st.arena[st.cur], name);
            r.Threw? <==> prior.Some? && prior.value.constant
    ensures r.Threw? ==> r.st == st && r.err == MutatingConstant(name, st.arena[st.cur].bindings[name])
    ensures r.Done? ==> r.value == v && Scope.Get(r.st.arena[r.st.cur], name) == Some(Scope.Binding(v, false))
    ensures r.Done? ==> r.st.heap == st.heap && r.st.serial == st.serial && |r.st.arena| == |st.arena|
                        && forall i :: 0 <= i < |st.arena| && i != st.cur ==> r.st.arena[i] == st.arena[i]
    ensures r.Done? ==> forall other :: other != name ==>
                          Scope.Get(r.st.arena[r.st.cur], other) == Scope.Get(st.arena[st.cur], other)
  {
    var (s, err) := Scope.Set(st.arena[st.cur], name, Scope.Binding(v, false));
    match err
    case Some(e) =>
      EvolvesReflexive(st);
      Threw(MutatingConstant(e.name, e.item), st)
    case None =>
      Done(v, Bind(st, name, v, false))
  }

  /** The handles of a scope and its ancestors, innermost first, following
      at most `fuel` parent links and stopping at a handle outside the
      arena. */
  function Chain(arena: seq<Scope.S<Value>>, id: nat, fuel: nat): (r: seq<nat>)
    ensures forall k :: 0 <= k < |r| ==> r[k] < |arena|
    ensures |r| > 0 ==> r[0] == id
    decreases fuel
  {
    if fuel == 0 || id >= |arena| then []
    else
      match arena[id].parent
      case None => [id]
      case Some(p) => [id] + Chain(arena, p, fuel - 1)
  }

  /** The binding of `name` in the first of `ids` that binds it. */
  function FirstHit(arena: seq<Scope.S<Value>>, ids: seq<nat>, name: string): (r: Option<Scope.Binding<Value>>)
    requires forall k :: 0 <= k < |ids| ==> ids[k] < |arena|
    ensures r.None? <==> forall k :: 0 <= k < |ids| ==> name !in arena[ids[k]].bindings
    ensures r.Some? ==> exists k :: 0 <= k < |ids| && name in arena[ids[k]].bindings
                                    && r.value == arena[ids[k]].bindings[name]
                                    && (forall j :: 0 <= j < k ==> name !in arena[ids[j]].bindings)
    decreases |ids|
  {
    if |ids| == 0 then None
    else if name in arena[ids[0]].bindings then Some(arena[ids[0]].bindings[name])
    else
      var rest := FirstHit(arena, ids[1..], name);
      if rest.Some? then
        ghost var k :| 0 <= k < |ids[1..]| && name in arena[ids[1..][k]].bindings
                      && rest.value == arena[ids[1..][k]].bindings[name]
                      && (forall j :: 0 <= j < k ==> name !in arena[ids[1..][j]].bindings);
        assert forall j :: 0 <= j < k + 1 ==> name !in arena[ids[j]].bindings by {
          forall j | 0 <= j < k + 1
            ensures name !in arena[ids[j]].bindings
          {
            if j > 0 {
              assert ids[j] == ids[1..][j - 1];
            }
          }
        }
        rest
      else
        assert forall k :: 1 <= k < |ids| ==> ids[k] == ids[1..][k - 1];
        rest
  }

  /** The lookup loop of `Runtime.Lookup`: walk from scope `id` through the
      parent links, returning the first binding of `name`. */
  function FindInChain(arena: seq<Scope.S<Value>>, id: nat, name: string, fuel: nat): Option<Scope.Binding<Value>>
    decreases fuel
  {
    if fuel == 0 || id >= |arena| then None
    else
      match Scope.Get(arena[id], name)
      case Some(b) => Some(b)
      case None =>
        match arena[id].parent
        case None => None
        case Some(p) => FindInChain(arena, p, name, fuel - 1)
  }

  /** The walk finds exactly the first binding along the chain. */
  lemma {:induction false} FindInChainIsFirstHit(arena: seq<Scope.S<Value>>, id: nat, name: string, fuel: nat)
    ensures FindInChain(arena, id, name, fuel) == FirstHit(arena, Chain(arena, id, fuel), name)
    decreases fuel
  {
    if fuel == 0 || id >= |arena| {
    } else {
      var c := Chain(arena, id, fuel);
      assert c[0] == id;
      if name !in arena[id].bindings {
        match arena[id].parent
        case None =>
          assert c == [id];
        case Some(p) =>
          assert c[1..] == Chain(arena, p, fuel - 1);
          assert FirstHit(arena, c, name) == FirstHit(arena, c[1..], name);
          FindInChainIsFirstHit(arena, p, name, fuel - 1);
      }
    }
  }

  /** `Runtime.Lookup`: the active scope, then each ancestor, then the
      runtime's globals, then the engine's globals; the first hit wins, and
      a name found nowhere is not declared. */
  function Lookup(g: Globals, st: State, name: string): (r: Result<Value, Error>)
    ensures var hit := FirstHit(st.arena, Chain(st.arena, st.cur, |st.arena|), name);
            && (hit.Some? ==> r == Ok(hit.value.item))
            && (hit.None? && name in g.runtime ==> r == Ok(g.runtime[name]))
            && (hit.None? && name !in g.runtime && name in g.engine ==> r == Ok(g.engine[name]))
            && (hit.None? && name !in g.runtime && name !in g.engine ==> r == Err(NotDeclared(name)))
  {
    FindInChainIsFirstHit(st.arena, st.cur, name, |st.arena|);
    match FindInChain(st.arena, st.cur, name, |st.arena|)
    case Some(b) => Ok(b.item)
    case None =>
      if name in g.runtime then Ok(g.runtime[name])
      else if name in g.engine then Ok(g.engine[name])
      else Err(NotDeclared(name))
  }

  /** Shadowing: a binding in the active scope hides every outer binding
      and every global of the same name. */
  lemma InnermostBindingShadows(g: Globals, st: State, name: string)
    requires Valid(st) && name in st.arena[st.cur].bindings
    ensures Lookup(g, st, name) == Ok(st.arena[st.cur].bindings[name].item)
  {
    var c := Chain(st.arena, st.cur, |st.arena|);
    assert c[0] == st.cur;
  }

  /** After `x = v` succeeds, `x` resolves to `v`. */
  lemma AssignedNameResolves(g: Globals, st: State, name: string, v: Value)
    requires Valid(st) && AssignName(st, name, v).Done?
    ensures Lookup(g, AssignName(st, name, v).st, name) == Ok(v)
  {
    var t := AssignName(st, name, v).st;
    InnermostBindingShadows(g, t, name);
  }

  /** In a rooted arena the walk from a scope never leaves the scopes
      created up to it, so adding scopes or fuel does not change what it
      finds. */
  lemma {:induction false} FindInChainStable(a: seq<Scope.S<Value>>, b: seq<Scope.S<Value>>, id: nat, name: string, fa: nat, fb: nat)
    requires Rooted(a) && id < |a| <= |b| && id < fa && id < fb
    requires forall i :: 0 <= i < |a| ==> b[i] == a[i]
    ensures FindInChain(b, id, name, fb) == FindInChain(a, id, name, fa)
    decreases id
  {
    if name !in a[id].bindings {
      match a[id].parent
      case None =>
      case Some(p) => FindInChainStable(a, b, p, name, fa - 1, fb - 1);
    }
  }

  /** Name resolution depends only on the scopes along the active chain:
      a later state that kept every existing scope as it was and has the
      same scope active resolves every name as before. */
  lemma LookupStable(g: Globals, s: State, t: State, name: string)
    requires Valid(s) && Rooted(s.arena) && t.cur == s.cur && |s.arena| <= |t.arena|
    requires forall i :: 0 <= i < |s.arena| ==> t.arena[i] == s.arena[i]
    ensures Lookup(g, t, name) == Lookup(g, s, name)
  {
    FindInChainStable(s.arena, t.arena, s.cur, name, |s.arena|, |t.arena|);
  }
}

=== FILE: scenarios.dfy ===
/** Whole programs from the repository's test table (machine/machine_test.go),
    run on a fresh runtime. Number literals are written as integers so that
    the outcome does not depend on the host's float parser; the error each
    program ends in does not depend on the number's kind. */
module Scenarios {
  import opened Base
  import opened Ast
  import opened Values
  import opened Memory
  import opened Errors
  import opened Runtime
  import opened Literals
  import opened Access
  import opened Evaluator
  import opened Machine
  import Scope

  function Num(text: string): Node
  {
    LiteralExpr(Decimal, text)
  }

  lemma SmallNumbers(cx: Ctx, st: State)
    requires Valid(st)
    ensures Eval(cx, 7, st, Num("1")) == Done(Int(1), st)
    ensures Eval(cx, 7, st, Num("2")) == Done(Int(2), st)
    ensures Eval(cx, 8, st, Num("1")) == Done(Int(1), st)
  {
    assert DigitsValue("1") == 1 by { assert "1"[..0] == ""; }
    assert DigitsValue("2") == 2 by { assert "2"[..0] == ""; }
    assert Atoi("1") == Some(1) by { assert !("1"[0] == '-' || "1"[0] == '+'); }
    assert Atoi("2") == Some(2) by { assert !("2"[0] == '-' || "2"[0] == '+'); }
  }

  /** `const a = 1;` in the block scope `Run` pushes on a fresh runtime
      binds `a` constant to 1 there. */
  lemma DeclareConstA(cx: Ctx) returns (p: State, s1: State)
    ensures p == Push(Initial(EmptyHeap), 0)
    ensures Eval(cx, 9, p, VarDecl(ConstKw, [BindingElement(Ident("a"), Num("1"))])) == Done(Undefined, s1)
    ensures Valid(s1) && s1.cur == p.cur && s1.heap == EmptyHeap
    ensures Scope.Get(s1.arena[s1.cur], "a") == Some(Scope.Binding(Int(1), true))
  {
    p := Push(Initial(EmptyHeap), 0);
    SmallNumbers(cx, p);
    s1 := Bind(p, "a", Int(1), true);
    assert EvalBinding(cx, 8, p, BindingElement(Ident("a"), Num("1")), Undefined, true) == Done(Undefined, s1);
  }

  /** `const a = 1; a = 2;` fails with the constant-mutation error, which
      carries the constant binding. */
  lemma ReassigningConstFails(cx: Ctx)
    ensures var r := Run(cx, 10, Initial(EmptyHeap), [
                       VarDecl(ConstKw, [BindingElement(Ident("a"), Num("1"))]),
                       ExprStmt(BinaryExpr(Assign, Var("a"), Num("2")))]);
            r.Threw? && r.err == MutatingConstant("a", Scope.Binding(Int(1), true))
  {
    var decl := VarDecl(ConstKw, [BindingElement(Ident("a"), Num("1"))]);
    var assign := ExprStmt(BinaryExpr(Assign, Var("a"), Num("2")));
    var p, s1 := DeclareConstA(cx);
    var err := MutatingConstant("a", Scope.Binding(Int(1), true));
    AssignConstA(cx, s1);
    assert EvalStmts(cx, 9, s1, [assign]) == Threw(err, s1);
    assert EvalStmts(cx, 9, p, [decl, assign]) == Threw(err, s1) by {
      assert [decl, assign][1..] == [assign];
    }
  }

  /** `a = 2` where `a` is bound constant to 1 in the active scope. */
  lemma AssignConstA(cx: Ctx, s1: State)
    requires Valid(s1) && Scope.Get(s1.arena[s1.cur], "a") == Some(Scope.Binding(Int(1), true))
    ensures Eval(cx, 9, s1, ExprStmt(BinaryExpr(Assign, Var("a"), Num("2"))))
            == Threw(MutatingConstant("a", Scope.Binding(Int(1), true)), s1)
  {
    SmallNumbers(cx, s1);
    var err := MutatingConstant("a", Scope.Binding(Int(1), true));
    assert EvalAssign(cx, 7, s1, Var("a"), Num("2")) == Threw(err, s1);
  }

  /** `a.b = 2` where `a` is bound to 1 in the active scope. */
  lemma AssignMemberOfNumber(cx: Ctx, s1: State)
    requires Valid(s1) && Scope.Get(s1.arena[s1.cur], "a") == Some(Scope.Binding(Int(1), true))
    ensures Eval(cx, 9, s1, ExprStmt(BinaryExpr(Assign, DotExpr(Var("a"), "b"), Num("2")))) == Threw(NotObject(Int(1)), s1)
  {
    SmallNumbers(cx, s1);
    InnermostBindingShadows(cx.globals, s1, "a");
    assert Eval(cx, 7, s1, Var("a")) == Done(Int(1), s1) by {
      assert Eval(cx, 7, s1, Var("a")) == EvalVar(cx.globals, s1, "a");
    }
    assert DotWrite(s1.heap, Int(1), "b", Int(2)) == Err(NotObject(Int(1)));
    assert EvalAssign(cx, 7, s1, DotExpr(Var("a"), "b"), Num("2")) == Threw(NotObject(Int(1)), s1);
  }

  /** `const a = 1; a.b = 2;` fails because a number is not an object; the
      constant binding itself is not what stops it. */
  lemma MemberOfNumberFails(cx: Ctx)
    ensures var r := Run(cx, 10, Initial(EmptyHeap), [
                       VarDecl(ConstKw, [BindingElement(Ident("a"), Num("1"))]),
                       ExprStmt(BinaryExpr(Assign, DotExpr(Var("a"), "b"), Num("2")))]);
            r.Threw? && r.err == NotObject(Int(1))
  {
    var decl := VarDecl(ConstKw, [BindingElement(Ident("a"), Num("1"))]);
    var assign := ExprStmt(BinaryExpr(Assign, DotExpr(Var("a"), "b"), Num("2")));
    var p, s1 := DeclareConstA(cx);
    var err := NotObject(Int(1));
    AssignMemberOfNumber(cx, s1);
    assert EvalStmts(cx, 9, s1, [assign]) == Threw(err, s1);
    assert EvalStmts(cx, 9, p, [decl, assign]) == Threw(err, s1) by {
      assert [decl, assign][1..] == [assign];
    }
  }
}

=== FILE: scope.dfy ===
/** The lexical scope layer (scope/scope.go): a scope maps names to bindings
    and points at its parent. The parent is a handle into the runtime's scope
    arena; this module never follows it, since chain walking belongs to the
    evaluator. Bindings are generic in the stored item, as Go stores an
    `interface{}`. */
module Scope {
  import opened Base

  /** One name's binding: the stored item and whether it is constant. */
  datatype Binding<T> = Binding(item: T, constant: bool)

  /** A scope: its parent's handle (None for a root) and its own bindings. */
  datatype S<T> = S(parent: Option<nat>, bindings: map<string, Binding<T>>)

  /** The error `Set` reports when asked to overwrite a constant binding; it
      carries the name and the binding that stays in place. */
  datatype MutatingConstantError<T> = MutatingConstantError(name: string, item: Binding<T>)

  /** A fresh scope under `parent`: no name is bound in it. */
  function New<T>(parent: Option<nat>): (s: S<T>)
    ensures s.parent == parent
    ensures forall name :: Get(s, name) == None
  {
    S(parent, map[])
  }

  /** Local lookup only: the binding stored under `name` in this scope. */
  function Get<T>(s: S<T>, name: string): Option<Binding<T>>
  {
    if name in s.bindings then Some(s.bindings[name]) else None
  }

  /** Store `b` under `name`, unless the binding already there is constant,
      in which case the scope comes back unchanged with the error. Only the
      entry for `name` changes, and a constant binding may replace a
      non-constant one. */
  function Set<T>(s: S<T>, name: string, b: Binding<T>): (r: (S<T>, Option<MutatingConstantError<T>>))
    ensures r.1.Some? <==> Get(s, name).Some? && Get(s, name).value.constant
    ensures r.1.Some? ==> r.0 == s && r.1 == Some(MutatingConstantError(name, s.bindings[name]))
    ensures r.1.None? ==> Get(r.0, name) == Some(b)
    ensures r.0.parent == s.parent
    ensures forall other :: other != name ==> Get(r.0, other) == Get(s, other)
  {
    if name in s.bindings && s.bindings[name].constant then
      (s, Some(MutatingConstantError(name, s.bindings[name])))
    else
      (s.(bindings := s.bindings[name := b]), None)
  }

  /** `t` is a later state of scope `s`: same parent, no binding removed and
      every constant binding of `s` still in place. */
  ghost predicate Extends<T>(s: S<T>, t: S<T>)
  {
    && t.parent == s.parent
    && (forall name :: name in s.bindings ==> name in t.bindings)
    && (forall name :: name in s.bindings && s.bindings[name].constant ==> t.bindings[name] == s.bindings[name])
  }

  lemma ExtendsReflexive<T>(s: S<T>)
    ensures Extends(s, s)
  {
  }

  lemma ExtendsTransitive<T>(a: S<T>, b: S<T>, c: S<T>)
    requires Extends(a, b) && Extends(b, c)
    ensures Extends(a, c)
  {
  }

  /** No call of `Set` removes a binding or changes a constant one. */
  lemma SetExtends<T>(s: S<T>, name: string, b: Binding<T>)
    ensures Extends(s, Set(s, name, b).0)
  {
    var t := Set(s, name, b).0;
    forall n | n in s.bindings
      ensures n in t.bindings
    {
      if n != name {
        assert Get(t, n) == Get(s, n);
      }
    }
  }

  /** Apply a series of `Set` calls, discarding their errors, as declarations
      do. */
  function SetAll<T>(s: S<T>, ops: seq<(string, Binding<T>)>): S<T>
    decreases |ops|
  {
    if |ops| == 0 then s else SetAll(Set(s, ops[0].0, ops[0].1).0, ops[1..])
  }

  /** Once a name is bound constant in a scope, that binding stays there
      through any later series of `Set` calls. */
  lemma {:induction false} ConstantIsPermanent<T>(s: S<T>, ops: seq<(string, Binding<T>)>, name: string)
    requires Get(s, name).Some? && Get(s, name).value.constant
    ensures Get(SetAll(s, ops), name) == Get(s, name)
    decreases |ops|
  {
    if |ops| > 0 {
      var s' := Set(s, ops[0].0, ops[0].1).0;
      assert Get(s', name) == Get(s, name);
      ConstantIsPermanent(s', ops[1..], name);
    }
  }
}

=== FILE: values.dfy ===
/** The closed set of runtime values (machine/machine.go works on Go
    `interface{}` values; these are the kinds it can meet). Objects and
    arrays are references: the value holds an address into the heap, so every
    holder of the same address sees the same storage. */
module Values {
  import opened Base
  import opened Ast

  /** The Go types a native function's results may have, as far as the
      native-call bridge distinguishes them. */
  datatype GoType = EmptyInterface | ErrorInterface | OtherType(name: string)

  /** The shape of a Go function type, as the bridge inspects it by
      reflection: declared parameter count, whether the last parameter is
      variadic, and the result types. */
  datatype Signature = Signature(numIn: nat, variadic: bool, outs: seq<GoType>)

  /** Every interpreted function is the Go closure
      `func(...interface{}) (interface{}, error)`. */
  const ClosureSignature: Signature := Signature(1, true, [EmptyInterface, ErrorInterface])

  datatype Value =
    | Undefined
    | Int(i: Int64)
    | Float(bits: bv64)
    | Str(s: string)
    | Bool(b: bool)
    | Obj(addr: nat)
    | Arr(addr: nat)
      /** An interpreted function: the scope it was created in, its
          parameters and its body. `serial` is its identity: each creation
          makes a new function object. */
    | Closure(serial: nat, scope: nat, params: seq<BindingElement>, body: seq<Node>)
      /** A host-supplied Go function: its signature and its code. */
    | Native(sig: Signature, code: nat)

  /** The reflection kind of a value; `Invalid` is the kind of Go's nil. */
  datatype Kind = Invalid | BoolKind | IntKind | Float64Kind | StringKind | MapKind | SliceKind | FuncKind

  function KindOf(v: Value): Kind
  {
    match v
    case Undefined => Invalid
    case Int(_) => IntKind
    case Float(_) => Float64Kind
    case Str(_) => StringKind
    case Bool(_) => BoolKind
    case Obj(_) => MapKind
    case Arr(_) => SliceKind
    case Closure(_, _, _, _) => FuncKind
    case Native(_, _) => FuncKind
  }

  /** The function signature of a value, or None when it is not a function. */
  function SigOf(v: Value): (r: Option<Signature>)
    ensures r.Some? <==> KindOf(v) == FuncKind
  {
    match v
    case Closure(_, _, _, _) => Some(ClosureSignature)
    case Native(sig, _) => Some(sig)
    case _ => None
  }
}
